=== FILE: README.md ===
# pixeleds-library in Dafny

A model of the integer and bit-level core of the pixeleds LED-strip library
for Particle devices, with proofs of the behaviour its code and comments
promise.

- **Colours and palettes** (`color.dfy`, `palette.dfy`, `animation.dfy`).
  - `PixCol` and its `0xRRGGBB` packing, with `==` and `!=`.
  - The integer sector-based `hsv(int, byte, byte)`.
  - `PixPal` equality.
  - The wrap-around `paletteColor` and `pixelColor` lookups and `setPixels` of `PixAniData`.
- **Colour orders** (`channel_order.dfy`): the `ORDER_*` descriptors, one 2-bit field per channel.
- **The animation engine** (`engine.dfy`, `neo_strip.dfy`).
  - `Pixeleds` as an immutable record: the animation function, the animation context, the refresh interval and the strip's `refresh` flag.
  - Every operation takes the caller's millisecond clock as `now`.
  - An animation function is a pointer (`FnPtr`) whose behaviour is a `Program` supplied from outside. One call may repaint the pixels and change `data`, and nothing else.
  - The NeoPixel-backed `ParticlePixels` is a pixel buffer plus the `refresh` flag. Showing a frame becomes a returned value.
- **The Photon 1 bit-banged driver** (`bit_bang.dfy`).
  - Offset decoding, colour-word packing and the most-significant-bit-first bit loop.
  - The pin toggles become the list of bits sent.
  - The per-type reset gap, and its unsigned 32-bit wait test.
- **The Photon 2 SPI driver** (`spi_encoder.dfy`, `spi_strip.dfy`).
  - The 1→`110`, 0→`100` expansion of a byte into three SPI bytes.
  - The constructor's buffer geometry, and the loop that fills the buffer.
- **The candy-cane example** (`candy_cane.dfy`).
  - Position wrapping, and randomly scheduled direction and stretch changes, with `random` supplied as a `draw` argument.
  - The power-saving pixel pattern.

Shared helpers:

- `bits.dfy`: bytes as integers 0..255, bit lists most significant first, and unsigned 32-bit subtraction.
- `carith.dfy`: C's truncating `/` and `%`, and Arduino's `constrain`.
- `wrappers.dfy`: `Option` for nullable pointers, and `Result` for constructors that return early.

Integers are unbounded. Where the code relies on a fixed width (the
microsecond wait), the wrap is written out with `% 2^32`.

## Model

| member | source | states |
|---|---|---|
| Bits.SubU32 | src/pixeleds-photon1.cpp:41 | unsigned 32-bit `a - b`: the result added back to `b`, modulo 2^32, gives `a` |
| CArith.CDiv | src/pixeleds-library.cpp:136 | C's `/`: equals the exact quotient for non-negative dividends and is never positive for negative ones |
| CArith.CMod | src/pixeleds-library.cpp:135 | C's `%`: the division identity with `CDiv`, and the remainder takes the dividend's sign |
| CArith.Constrain | examples/candycane-animation.cpp:125-129 | the result lies within the bounds and is the input whenever the input already lies within them |
| Color.Rgb | src/pixeleds-library.h:69 | a packed colour fits in 24 bits |
| Color.FromRgb | src/pixeleds-library.h:56-57 | the channels are the base-256 digits of the low 24 bits: the word is a multiple of 2^24 plus `r * 65536 + g * 256 + b` |
| Color.Equal | src/pixeleds-library.h:59-61 | channel-wise `==` holds exactly when the colours are equal |
| Color.NotEqual | src/pixeleds-library.h:63-65 | channel-wise `!=` holds exactly when the colours differ |
| Color.RgbOfFromRgb | src/pixeleds-library.h:57-58 | packing an unpacked word gives back its low 24 bits (`x & 0xFFFFFF`) |
| Color.FromRgbOfRgb | src/pixeleds-library.h:69 | unpacking a packed colour gives back the colour |
| Color.RgbInjective | src/pixeleds-library.h:69 | two colours pack to the same word exactly when they are the same colour |
| Color.EqualityOperators | src/pixeleds-library.h:60-66 | `==` holds exactly when all three channels agree, and `!=` is exactly its negation |
| Color.HsvBase | src/pixeleds-library.h:100 | `((255 - sat) * val) >> 8` lies between 0 and `val` |
| Color.Sector | src/pixeleds-library.h:101-108 | for a hue in [0, 360) one channel is `val`, one is `base` and the third lies between, with red full in sectors 0 and 5, green in 1 and 2, blue in 3 and 4; hue 360 matches no case and is grey |
| Color.Ramp | src/pixeleds-library.h:102-107 | each sector's interpolated channel lies in `[base, val]`: `base` at one end of the sector, `val` at the other |
| Color.NormalizeHue | src/pixeleds-library.h:99 | the normalised hue lies in [0, 360] and is congruent to the hue modulo 360; it is 360 exactly for negative multiples of 360 |
| Color.Hsv | src/pixeleds-library.h:96-111 | zero saturation, or a hue normalised to 360, gives grey `(val, val, val)`; otherwise one channel is `val`, one is `base`, and the third lies between them, so no channel exceeds `val` |
| Color.HsvPeriodicNonNegative | src/pixeleds-library.h:99 | for hue ≥ 0, `hsv(hue) == hsv(hue % 360)` and `hsv(hue + 360) == hsv(hue)` |
| Color.HsvNegative | src/pixeleds-library.h:99 | a negative hue that is not a multiple of 360 behaves like its representative in [0, 360) |
| Color.HsvNegativeMultipleIsGrey | src/pixeleds-library.h:99-110 | a negative multiple of 360 matches no `case` and gives grey `(val, val, val)` at any saturation |
| Color.HsvMinus360IsWhite | src/pixeleds-library.h:99-110 | `hsv(-360, 255, 255)` is white while `hsv(0, 255, 255)` is red, so the two differ |
| Color.HsvZeroIsRed | src/pixeleds-library.h:99-102 | hue 0 at full saturation is `(val, 0, 0)` |
| Color.HsvWrapped | src/pixeleds-library.h:96-111 | the corrected conversion: grey at zero saturation, the sector shape at every hue otherwise |
| Color.HsvWrappedPeriodic | src/pixeleds-library.h:99 | the corrected conversion is periodic in the hue: adding any multiple of 360 changes nothing |
| Color.HsvWrappedAgrees | src/pixeleds-library.h:99 | the corrected conversion agrees with `hsv` at every hue except the negative multiples of 360 |
| Palette.Equals | src/pixeleds-library.h:345-351 | the early-exit scan answers true exactly when the counts are equal and the colours agree at every index below the count |
| Palette.SamePaletteEquivalence | src/pixeleds-library.h:345-351 | palette equality is reflexive, symmetric and transitive, and ignores backing entries past `count` |
| Animation.Empty | src/pixeleds-library.h:562 | a default context holds the given pixels and no palette |
| Animation.PaletteColor | src/pixeleds-library.h:408 | an index below the count selects that entry, and every result is one of the palette's `count` colours |
| Animation.PaletteColorWraps | src/pixeleds-library.h:408 | indices that differ by a multiple of the palette count give the same colour |
| Animation.PixelColor | src/pixeleds-library.h:412 | an index below the pixel count selects that pixel, and every result is one of the pixels |
| Animation.PixelColorWraps | src/pixeleds-library.h:412 | indices that differ by a multiple of the pixel count give the same colour |
| Animation.SetPixels | src/pixeleds-library.h:414 | every pixel becomes the colour, the pixel count is unchanged, and no other field changes |
| Animation.PixelColorAfterSetPixels | src/pixeleds-library.h:412-414 | after `setPixels(c)` every wrapped pixel lookup yields `c` |
| Animation.Fire | src/pixeleds-library.cpp:102 | one call of the animation function changes only the pixels (keeping their count) and `data` |
| ChannelOrder.RField | src/pixeleds-photon1.cpp:16 | `order & 3` is a 2-bit field |
| ChannelOrder.GField | src/pixeleds-photon1.cpp:17 | `(order >> 2) & 3` is a 2-bit field |
| ChannelOrder.BField | src/pixeleds-photon1.cpp:18 | `(order >> 4) & 3` is a 2-bit field |
| ChannelOrder.WField | src/pixeleds-photon2.h:45 | `(order >> 6) & 3` is a 2-bit field |
| ChannelOrder.FieldsDetermineOrder | src/pixeleds-library.h:36-41 | a descriptor is exactly the sum of its four fields shifted to bits 0, 2, 4 and 6 |
| ChannelOrder.OrderConstantsArePermutations | src/pixeleds-library.h:36-41 | each of the six `ORDER_*` constants decodes to a permutation of {0,1,2} naming its transmit order, with a zero white field |
| ChannelOrder.RgbPermutationsAreTheConstants | src/pixeleds-library.h:36-41 | conversely, a descriptor with a zero white field is a permutation exactly when it is one of the six constants |
| NeoStrip.New | src/pixeleds-library.h:494 | a new strip holds the pixels and has a refresh pending |
| NeoStrip.SetPixelColor | src/pixeleds-library.cpp:186-191 | an index below the count is written and requests a refresh; every other pixel is kept; an index past the end changes nothing |
| NeoStrip.TriggerRefresh | src/pixeleds-library.cpp:193-195 | the flag is set and the pixels are kept |
| NeoStrip.Update | src/pixeleds-library.cpp:176-184 | with neither the flag nor `doRefresh` set nothing is shown or changed; otherwise the whole buffer is shown and the flag cleared |
| NeoStrip.WriteFrom | src/pixeleds-library.cpp:67 | the per-index `setPixelColor` loop leaves pixels before `from` alone, writes the source colour from there on, and sets the flag exactly when it writes something |
| NeoStrip.UpdateSettles | src/pixeleds-library.cpp:177 | a second update with nothing new shows nothing |
| NeoStrip.SetPixelColorFlag | src/pixeleds-library.cpp:187-189 | the flag after a write is set exactly when it was already set or the index was in range |
| Engine.New | src/pixeleds-library.cpp:32-37 | no animation, an empty context over the pixels, a 33 ms refresh interval and a pending refresh |
| Engine.IsAnimationActive | src/pixeleds-library.cpp:111-113 | an active animation in a valid controller has a cycle duration of at least 1; what the test answers after a start, a direct write and an update is stated by `Engine.ActivityTransitions` |
| Engine.SetAnimationRefresh | src/pixeleds-library.cpp:107-109 | only the refresh interval changes, and validity is kept |
| Engine.Prepared | src/pixeleds-library.cpp:93-101 | the reset context: cycle duration `cycle > 0 ? cycle : 1` (never below 1), `start = updated = now`, `stop - start == duration`, zero cycle position and count |
| Engine.StartAnimation | src/pixeleds-library.cpp:90-105 | the function is installed exactly when the duration is non-zero, is called once on the reset context, and a refresh is requested |
| Engine.UpdateAnimation | src/pixeleds-library.cpp:123-145 | not due: nothing changes. Due and expired: only the function is cleared. Otherwise: `updated := now`, `cycleCount * cycleDuration + cycleMillis == now - start` with the cycle position inside the cycle when `now >= start`, and, as C's truncating `%` and `/` give for an earlier `now` (possible with a negative refresh interval), a position in `(-cycleDuration, 0]` and a count of at most 0; the function is called once, and a refresh is requested |
| Engine.Update | src/pixeleds-library.cpp:47-50 | a frame is shown exactly when a refresh was pending or the animation ticked; it shows the animated pixels, and the flag ends cleared |
| Engine.SetPixel | src/pixeleds-library.cpp:56-59 | the animation is cancelled; an in-range pixel is written and a refresh requested, an out-of-range one leaves the flag as it was; the other pixels, the rest of the context and the refresh interval are kept |
| Engine.Padded | src/pixeleds-library.cpp:72 | the source colours are `colors[idx]` below `count` and black beyond |
| Engine.SetPixels | src/pixeleds-library.cpp:65-68 | the animation is cancelled, every pixel takes the colour, a refresh is requested iff one was pending or there are pixels, and the rest of the context and the refresh interval are kept |
| Engine.SetPixelsFrom | src/pixeleds-library.cpp:70-73 | the animation is cancelled, pixels below `count` take the given colours and the rest become black, a refresh is requested iff one was pending or there are pixels, and the rest of the context and the refresh interval are kept |
| Engine.UpdatePixel | src/pixeleds-library.cpp:75-78 | the pixel is written and shown at once and the flag ends cleared; the animation function, the rest of the context (timing, palette, data) and the refresh interval are kept, so the animation keeps running |
| Engine.UpdatePixels | src/pixeleds-library.cpp:80-83 | every pixel is painted and shown at once; the animation function, the rest of the context and the refresh interval are kept |
| Engine.UpdatePixelsFrom | src/pixeleds-library.cpp:85-88 | the colours are copied (black beyond `count`) and shown at once; the animation function, the rest of the context and the refresh interval are kept |
| Engine.RunAnimation | src/pixeleds-library.cpp:123-145 | any run of updates keeps the cycle duration at least 1 while an animation is active |
| Engine.IdleStaysIdle | src/pixeleds-library.cpp:124 | with no function set, no run of updates changes anything |
| Engine.ZeroDurationFiresOnce | src/pixeleds-library.cpp:92 | a zero duration fires only inside `startAnimation`; every later run of updates is a no-op |
| Engine.NeverExpires | src/pixeleds-library.cpp:128 | with `stop < start` no run of updates clears the function |
| Engine.NegativeDurationRunsForever | src/pixeleds-library.cpp:92-128 | a negative duration is never auto-stopped |
| Engine.DirectWriteCancels | src/pixeleds-library.cpp:56-68 | after `setPixel` or `setPixels`, no run of updates changes anything |
| Engine.ActivityTransitions | src/pixeleds-library.cpp:111-113 | `isAnimationActive` holds after a start exactly when the duration is non-zero, never after a direct write, and after an update exactly when it held and the update did not auto-stop |
| Engine.CycleExample | src/pixeleds-library.cpp:134-136 | 2500 ms after a start at 0 with 1000 ms cycles is cycle 2, 500 ms in |
| Engine.StartIsInOrder | src/pixeleds-library.cpp:95-100 | a start leaves `updated ≥ start` and the cycle position inside the cycle |
| Engine.StaysInOrder | src/pixeleds-library.cpp:133-136 | with a non-negative refresh interval, every run of updates keeps `updated ≥ start` and the cycle position inside the cycle |
| BitBang.New | src/pixeleds-photon1.cpp:11-21 | the offsets are the order's 2-bit fields at bits 0, 2 and 4; a refresh is pending and the end time is zero |
| BitBang.NewIsPackable | src/pixeleds-photon1.cpp:56 | every order gives shifts that are valid for SK6812W; for WS2812B, a permutation order does too |
| BitBang.Word | src/pixeleds-photon1.cpp:56-58 | a word has 24 bits for WS2812B, 32 for SK6812W and none for other types |
| BitBang.LaneOfDistinctOffsets | src/pixeleds-photon1.cpp:56 | with distinct offsets each byte of the word is the channel with that offset, or zero |
| BitBang.WordIsChannelsInOrder | src/pixeleds-photon1.cpp:127 | for an `ORDER_*` permutation the word's bytes from the top are the channels in transmit order; an SK6812W word adds a zero white byte last |
| BitBang.ChannelAtOffsets | src/pixeleds-photon1.cpp:16-18 | each channel sits in the position its offset names, and the white position is zero |
| BitBang.StreamIndex | src/pixeleds-photon1.cpp:58-116 | the stream has `width` bits per pixel, and bit `k` of pixel `i`'s word is stream bit `width * i + k` |
| BitBang.ResetGap | src/pixeleds-photon1.cpp:36-40 | the gap is 300 µs for WS2812B, 80 µs for SK6812W and 50 µs otherwise |
| BitBang.GapElapsed | src/pixeleds-photon1.cpp:41 | the unsigned difference reaches the gap iff `now - end` does, or, when the counter has wrapped past `end`, `now + 2^32 - end` does |
| BitBang.GapElapsedAcrossRollover | src/pixeleds-photon1.cpp:41 | `micros() - endMicros >= gap` in 32-bit arithmetic holds exactly when the true elapsed time reaches the gap, even across a counter wrap |
| BitBang.SendWord | src/pixeleds-photon1.cpp:58-116 | the bit loop appends the word's bits in order |
| BitBang.Emit | src/pixeleds-photon1.cpp:50-118 | the pixel loop sends exactly the concatenation of the pixels' words |
| BitBang.Update | src/pixeleds-photon1.cpp:32-190 | without pixels, or without a pending or forced refresh, nothing happens; otherwise the whole stream is sent (nothing for an unsupported type), the end time is recorded and the flag is cleared |
| SpiEncoder.Encode | src/pixeleds-photon2.cpp:29-48 | the output is the all-zero pattern `92 49 24` plus, for each set input bit, the bit at the middle of its group |
| SpiEncoder.FirstByte | src/pixeleds-photon2.cpp:32-35 | the first output byte carries the groups of bits 7 and 6 and the first two bits of bit 5's group |
| SpiEncoder.SecondByte | src/pixeleds-photon2.cpp:38-41 | the second output byte carries the end of bit 5's group, the groups of bits 4 and 3, and the start of bit 2's group |
| SpiEncoder.ThirdByte | src/pixeleds-photon2.cpp:44-47 | the third output byte carries the end of bit 2's group and the groups of bits 1 and 0 |
| SpiEncoder.EncodeIsExpansion | src/pixeleds-photon2.cpp:29-48 | the 24 output bits, most significant first, are `110` for each 1 and `100` for each 0 of the input, from bit 7 down to bit 0 |
| SpiEncoder.GroupShape | src/pixeleds-photon2.cpp:6-10 | every 3-bit group starts with 1 and ends with 0, and its middle bit is the data bit |
| SpiEncoder.MiddleOfExpand | src/pixeleds-photon2.cpp:8-10 | reading each group's middle bit undoes the expansion |
| SpiEncoder.DecodeEncode | src/pixeleds-photon2.cpp:29-48 | decoding an encoded byte gives the byte back |
| SpiEncoder.EncodeInjective | src/pixeleds-photon2.cpp:29-48 | distinct bytes have distinct encodings |
| SpiEncoder.Vectors | src/pixeleds-photon2.cpp:23-27 | 0x00 gives 92 49 24, 0xFF gives DB 6D B6, and 0xB4 gives D3 69 A4, not the D3 4D 26 of the doc comment |
| SpiStrip.LayoutOf | src/pixeleds-photon2.h:40-52 | 4 bytes per LED exactly when the white field is non-zero; each offset is 3 × its field; reset offset 120; array size `n * bytesPerLED * 3 + 2 * 120` |
| SpiStrip.LayoutIsShaped | src/pixeleds-photon2.h:40-45 | `bytesPerLED == 4` exactly when `wOffset != 0`, and the fill loop's stride is `3 * bytesPerLED` |
| SpiStrip.TenPixelArraySize | src/pixeleds-photon2.h:51-52 | ten RGB pixels need 330 bytes, not the 540 of the comment |
| SpiStrip.PermutationsTile | src/pixeleds-photon2.h:42-45 | for a permutation order the channel slots are disjoint and cover the pixel's block |
| SpiStrip.New | src/pixeleds-photon2.h:28-59 | fails with UnsupportedType exactly for a type other than WS2812B and SK6812W, then with NoSpiInterface or OutOfMemory; on success the buffer has the computed size, is all zeros, and a refresh is pending |
| SpiStrip.Put | src/pixeleds-photon2.cpp:29-48 | the encoder writes exactly the three bytes at its target |
| SpiStrip.PutPixel | src/pixeleds-photon2.cpp:150-160 | one pixel's writes stay in its block; with tiling slots, each channel and the zero white land in their slots |
| SpiStrip.FillPixel | src/pixeleds-photon2.cpp:149-161 | one loop turn keeps the leading padding untouched; with tiling slots it also keeps the trailing padding untouched and the earlier pixels placed, and places the current pixel |
| SpiStrip.Fill | src/pixeleds-photon2.cpp:133-161 | the leading padding is never written; with tiling slots the trailing padding is not written either and every pixel's channels sit encoded at `120 + i * stride + offset` |
| SpiStrip.Update | src/pixeleds-photon2.cpp:129-168 | without pixels, or without a pending or forced refresh, nothing happens; otherwise the refilled buffer is sent whole, the flag is cleared, and, with tiling slots, zero padding stays zero and every pixel sits encoded in its slots |
| SpiStrip.NewIsConsistent | src/pixeleds-photon2.h:52-58 | a constructed strip has a consistent layout and zero padding |
| CandyCane.CalculatePosition | examples/candycane-animation.cpp:136-142 | for a non-negative base position, and always when moving left, the position lies in `[0, totalPixels)` |
| CandyCane.PositionsMirror | examples/candycane-animation.cpp:137-141 | the right- and left-moving positions add up to a multiple of the strip length, and multiples of the length map to 0 both ways |
| CandyCane.ScheduleNextEvent | examples/candycane-animation.cpp:65-67 | the next event lies in `[t + min, t + max)` |
| CandyCane.UpdateDirection | examples/candycane-animation.cpp:70-80 | when due, the direction flips, the change time is recorded and the next change is scheduled in `[t + min, t + max)`; before that nothing changes |
| CandyCane.UpdateStretch | examples/candycane-animation.cpp:99-133 | after a step the stretch lies within the limits and the step time is now; without a step the stretch and step time are kept; the stretch moves at most one step, in the current direction; a due reversal reschedules the next one to `t + draw`, in `[t + min, t + max)`, and no other field changes |
| CandyCane.AdjustedPos | examples/candycane-animation.cpp:192-195 | for a non-negative sum the index is `(i + position) % n`, halved (rounding down) in power-save mode, and lies in `[0, n)` |
| CandyCane.AdjustedPosPeriodic | examples/candycane-animation.cpp:192 | shifting the pixel by a whole strip gives the same index |
| CandyCane.Render | examples/candycane-animation.cpp:184-200 | in power-save mode every odd pixel is black; every other pixel is palette colour 0 or 1, chosen by the red-segment test at its adjusted position |

## Left out

- `interpolate`, `rinterpolate`, `scale`, `computeColorAt`, `hsv(double, …)`, `step`, `cyclePct` and the wave generators: floating-point numerics.
- The `animation_*` effect bodies, `randomColor`, the constant colour and palette tables, and `PixPal::create` (which is not defined in the library): effect code and plain data.
- The `setPixel(r, g, b)` and `setPixels(r, g, b)` overloads only build a `PixCol`, so they are covered by `Engine.SetPixel` and `Engine.SetPixels`.
- `rainbow`: it only calls `startAnimation` with fixed arguments.
- `setup` methods, NeoPixel calls, SPI begin/transfer, pin save/restore, interrupt masking, `nop` timing and logging: hardware I/O.
  - The shown frame or the sent bits are returned instead.
  - The SPI interface check and `malloc` success are Boolean inputs to the constructor.
- The reset-gap busy-wait itself: it is a loop on the clock. Its exit test is `BitBang.GapElapsed`, and the clock reading after the frame is the `finishMicros` argument.
- Animation times are unbounded integers. The engine's throttle test `millis > updated + animationRefresh` is not rollover-safe in the source, and no rollover claim is made for it.
- The animation callback receives a pointer to the whole context. The model lets it change only the pixels and `data`.
- `startAnimation` calls the function unconditionally, so a null function is not modelled: `f` is always a function.
- `PIXEL_BYTES_PER_COLOR` is not defined in the library. A pixel is three bytes (`PixCol` has no white channel), so the Photon 2 white slot is always fed 0.
- BitBang.Update: applies only when the order's offsets are valid shifts for the type (`Packable`). A WS2812B order with a field of 3 shifts by a negative amount, which is undefined in C.
- SpiStrip.FillPixel: the trailing-padding and placement facts of one loop turn are stated only for tiling orders, for the reason given under `SpiStrip.Fill`.
- SpiStrip.Update: the padding and placement facts of the sent buffer are stated only for tiling orders, for the reason given under `SpiStrip.Fill`.
- SpiStrip.Fill: the placement and trailing-padding facts are stated only for orders whose slots tile the block. Other orders make channels overlap, and the model only promises that they leave the leading padding alone.
- CandyCane: `updateSpeed` and its float multipliers, `isRedSegment` (float; a parameter of `Render`), `setup_candy_cane`, and the cast of `data` to a config pointer are not modelled.
- `random(min, max)` is a `draw` argument that must lie in `[min, max)`. The behaviour of `random` when `min >= max` is outside the shown code.
- Stretch values are reals, not 32-bit floats, so rounding of `+= 0.05` is not modelled.
- Pixel indices passed to `setPixel`/`updatePixel` must be ≥ 0, and lookup indices to `paletteColor`/`pixelColor` must be ≥ 0. The source has no lower-bound check. A negative pixel index writes out of bounds. A negative lookup index reads out of bounds unless it is a multiple of the count: C's `%` then gives 0 and element 0 is read.

## Findings

| source | as written | input that shows it | evidently intended | confidence | as-written member | corrected member |
|---|---|---|---|---|---|---|
| src/pixeleds-library.h:99 | `hue < 0 ? 360 + hue % 360 : hue % 360` maps a negative multiple of 360 to 360. `360 / 60 == 6` matches no `case`, so the colour is grey `(val, val, val)` at full saturation | `hsv(-360, 255, 255)` gives `(255, 255, 255)`, while `hsv(0, 255, 255)` gives `(255, 0, 0)` | hue continuous over negatives, as the line's comment says: every hue reduced into [0, 360) | high (proved on the model; not executed) | Color.HsvMinus360IsWhite | Color.HsvWrapped |

## Notes

Where the library's comments and its code disagree, the model follows the code:

- The worked example of `encodeByteTo3xBits` (src/pixeleds-photon2.cpp:23-27) gives `0x4D 0x26` as the second and third bytes for `0b10110100`. The code produces `0x69 0xA4` (`SpiEncoder.Vectors`).
- The size comment at src/pixeleds-photon2.h:51 claims 540 bytes for ten RGB pixels. The formula on the next line gives 330 (`SpiStrip.TenPixelArraySize`).
- The comment on `PixAniData::stop` says "equal to start for infinite". In the code the default duration −1 puts `stop` before `start`, and it is that ordering which disables auto-stop (`Engine.NegativeDurationRunsForever`).
- The corrected `Color.HsvWrapped` is the only HSV conversion the model proves periodic. `Color.Hsv` keeps the library's behaviour, so that its properties describe the code as written.

=== FILE: animation.dfy ===
/** `PixAniData`, the record an animation function receives, and the opaque
    step an animation function performs on it. */
module Animation {
  import opened Wrappers
  import opened Color
  import opened Palette
  import opened CArith

  /** The animation context. The pixel count is the length of `pixels`;
      times are milliseconds. The float `cyclePct` is not modelled. */
  datatype AniData = AniData(
    pixels: seq<PixCol>,
    palette: Option<PixPal>,
    cycleDuration: int,
    start: int,
    stop: int,
    updated: int,
    cycleMillis: int,
    cycleCount: int,
    data: int)

  /** `PixAniData()`: everything zero, no palette. */
  function Empty(pixels: seq<PixCol>): (d: AniData)
    ensures d.pixels == pixels && d.palette == None
  {
    AniData(pixels, None, 0, 0, 0, 0, 0, 0, 0)
  }

  /** A usable palette: present, non-empty and backed by enough colours. */
  predicate HasPalette(d: AniData)
  {
    d.palette.Some? && 0 < d.palette.value.count <= |d.palette.value.colors|
  }

  /** `paletteColor(int)`: palette entry `index % count`. */
  function PaletteColor(d: AniData, index: int): (c: PixCol)
    requires HasPalette(d) && index >= 0
    ensures index < d.palette.value.count ==> c == d.palette.value.colors[index]
    ensures c in d.palette.value.colors[..d.palette.value.count]
  {
    var p := d.palette.value;
    var n: int := p.count;
    var k := index % n;
    assert p.colors[..n][k] == p.colors[k];
    p.colors[k]
  }

  /** `pixelColor(int)`: pixel `index % pixelCount`. */
  function PixelColor(d: AniData, index: int): (c: PixCol)
    requires |d.pixels| > 0 && index >= 0
    ensures index < |d.pixels| ==> c == d.pixels[index]
    ensures c in d.pixels
  {
    var k := index % |d.pixels|;
    d.pixels[k]
  }

  /** Palette lookups wrap around: index `i` and `i + count` agree. */
  lemma PaletteColorWraps(d: AniData, i: int, k: nat)
    requires HasPalette(d) && i >= 0
    ensures PaletteColor(d, i + k * d.palette.value.count) == PaletteColor(d, i)
    ensures PaletteColor(d, i) == PaletteColor(d, i % d.palette.value.count)
  {
    ModAddMultiple(i, k, d.palette.value.count);
  }

  /** Pixel lookups wrap around: index `i` and `i + pixelCount` agree. */
  lemma PixelColorWraps(d: AniData, i: int, k: nat)
    requires |d.pixels| > 0 && i >= 0
    ensures PixelColor(d, i + k * |d.pixels|) == PixelColor(d, i)
    ensures PixelColor(d, i) == PixelColor(d, i % |d.pixels|)
  {
    ModAddMultiple(i, k, |d.pixels|);
  }

  /** `setPixels(PixCol)`: every pixel becomes `color`; nothing else changes. */
  method SetPixels(d: AniData, color: PixCol) returns (r: AniData)
    ensures r == d.(pixels := r.pixels)
    ensures |r.pixels| == |d.pixels|
    ensures forall i :: 0 <= i < |r.pixels| ==> r.pixels[i] == color
  {
    var px := d.pixels;
    var i := 0;
    while i < |px|
      invariant 0 <= i <= |px| == |d.pixels|
      invariant forall j :: 0 <= j < i ==> px[j] == color
    {
      px := px[i := color];
      i := i + 1;
    }
    r := d.(pixels := px);
  }

  /** After `setPixels` every wrapped pixel lookup yields that colour. */
  lemma PixelColorAfterSetPixels(d: AniData, r: AniData, color: PixCol, i: int)
    requires |r.pixels| == |d.pixels| > 0 && i >= 0
    requires forall j :: 0 <= j < |r.pixels| ==> r.pixels[j] == color
    ensures PixelColor(r, i) == color
  {
  }

  /** A pointer to an animation function; only its identity matters. */
  type FnPtr = nat

  /** What one call of an animation function leaves behind: new pixel
      colours (indexed by pixel) and a new `data` value. */
  datatype Frame = Frame(pixelAt: int -> PixCol, data: int)

  /** The behaviour of every animation function, supplied from outside. */
  type Program = (FnPtr, AniData) -> Frame

  /** One call `animation(&animationData)`: the function may repaint the
      pixels and change `data`, and changes nothing else. */
  function Fire(prog: Program, f: FnPtr, d: AniData): (r: AniData)
    ensures r == d.(pixels := r.pixels, data := r.data)
    ensures |r.pixels| == |d.pixels|
    ensures forall i :: 0 <= i < |r.pixels| ==> r.pixels[i] == prog(f, d).pixelAt(i)
  {
    var frame := prog(f, d);
    d.(pixels := seq(|d.pixels|, i => frame.pixelAt(i)), data := frame.data)
  }
}

=== FILE: bit_bang.dfy ===
/** The Photon 1 driver's data path: each pixel is packed into a 24-bit
    (WS2812B) or 32-bit (SK6812W) colour word whose bits are sent most
    significant first by toggling a pin. The pin toggles and their cycle
    timing are replaced by the list of bits sent. */
module BitBang {
  import opened Wrappers
  import opened Bits
  import opened Color
  import opened ChannelOrder

  /** Each channel's position (0 = first sent) in the strip's colour order. */
  datatype Offsets = Offsets(r: int, g: int, b: int)

  datatype BbStrip = BbStrip(
    pixels: Option<seq<PixCol>>,
    ledType: byte,
    offsets: Offsets,
    refresh: bool,
    endMicros: u32)

  /** The constructor: offsets from the order's fields at bits 0, 2 and 4, a
      pending refresh and a zero end time. */
  function New(pixels: Option<seq<PixCol>>, ledType: byte, order: byte): (s: BbStrip)
    ensures s.offsets == Offsets(RField(order), GField(order), BField(order))
    ensures s.refresh && s.endMicros == 0
    ensures s.pixels == pixels && s.ledType == ledType
  {
    BbStrip(pixels, ledType, Offsets(order % 4, (order / 4) % 4, (order / 16) % 4), true, 0)
  }

  /** A WS2812B word shifts each channel left by `(2 - ofs) * 8`; an offset
      of 3 would be a negative shift, so a WS2812B strip needs offsets up to 2. */
  predicate Packable(ledType: byte, o: Offsets)
  {
    0 <= o.r <= 3 && 0 <= o.g <= 3 && 0 <= o.b <= 3
    && (ledType == WS2812B ==> o.r <= 2 && o.g <= 2 && o.b <= 2)
  }

  lemma NewIsPackable(pixels: Option<seq<PixCol>>, order: byte)
    ensures Packable(SK6812W, New(pixels, SK6812W, order).offsets)
    ensures IsRgbPermutation(order) ==> Packable(WS2812B, New(pixels, WS2812B, order).offsets)
  {
  }

  /** The bits of a channel if it is shifted into byte `lane`, else zeros. */
  function Part(v: byte, inLane: bool): (bits: seq<bool>)
    ensures |bits| == 8
  {
    if inLane then ByteBits(v) else ZeroBits(8)
  }

  /** Byte `lane` of the colour word, counting from the most significant:
      the OR of the channels whose offset is `lane`. Shifting a channel by
      `(width/8 - 1 - ofs) * 8` puts it in lane `ofs`. */
  function Lane(px: PixCol, o: Offsets, lane: int): (bits: seq<bool>)
    ensures |bits| == 8
  {
    OrBits(OrBits(Part(px.r, o.r == lane), Part(px.g, o.g == lane)), Part(px.b, o.b == lane))
  }

  /** Bits per pixel: 24, 32, or none for an unsupported type. */
  function Width(ledType: byte): nat
  {
    if ledType == WS2812B then 24 else if ledType == SK6812W then 32 else 0
  }

  /** The colour word of one pixel, most significant bit first: exactly the
      bits `color & mask` tests as `mask` moves right from the top bit. For
      SK6812W the white byte, always 0, is ORed into the lowest lane. */
  function Word(ledType: byte, px: PixCol, o: Offsets): (w: seq<bool>)
    ensures |w| == Width(ledType)
  {
    if ledType == WS2812B then
      Lane(px, o, 0) + Lane(px, o, 1) + Lane(px, o, 2)
    else if ledType == SK6812W then
      Lane(px, o, 0) + Lane(px, o, 1) + Lane(px, o, 2) + OrBits(Lane(px, o, 3), ByteBits(0))
    else
      []
  }

  /** Bit lists joined end to end. */
  function Concat(words: seq<seq<bool>>): (bits: seq<bool>)
    decreases |words|
  {
    if |words| == 0 then [] else Concat(words[..|words| - 1]) + words[|words| - 1]
  }

  /** The words of a strip's pixels, in pixel order. */
  function Words(ledType: byte, pixels: seq<PixCol>, o: Offsets): (ws: seq<seq<bool>>)
    ensures |ws| == |pixels|
    ensures forall i :: 0 <= i < |ws| ==> |ws[i]| == Width(ledType)
  {
    seq(|pixels|, i requires 0 <= i < |pixels| => Word(ledType, pixels[i], o))
  }

  /** The reference bit stream of a strip: the pixels' words in order. */
  function Stream(ledType: byte, pixels: seq<PixCol>, o: Offsets): (bits: seq<bool>)
  {
    Concat(Words(ledType, pixels, o))
  }

  /** In a concatenation of equally wide words, bit `k` of word `i` sits at
      position `w * i + k`. */
  lemma {:induction false} ConcatIndex(words: seq<seq<bool>>, w: nat, i: nat, k: nat)
    requires forall j :: 0 <= j < |words| ==> |words[j]| == w
    requires i < |words| && k < w
    ensures |Concat(words)| == w * |words|
    ensures w * i + k < |Concat(words)|
    ensures Concat(words)[w * i + k] == words[i][k]
    decreases |words|
  {
    var n := |words|;
    var init := words[..n - 1];
    ConcatLength(init, w);
    MulStep(w, n - 1);
    if i < n - 1 {
      ConcatIndex(init, w, i, k);
      MulMono(w, i, n - 1);
    }
  }

  lemma {:induction false} ConcatLength(words: seq<seq<bool>>, w: nat)
    requires forall j :: 0 <= j < |words| ==> |words[j]| == w
    ensures |Concat(words)| == w * |words|
    decreases |words|
  {
    if |words| > 0 {
      ConcatLength(words[..|words| - 1], w);
      MulStep(w, |words| - 1);
    }
  }

  /** The channel a strip expects in position `lane`: the one whose offset
      is `lane`, or 0 when no channel has it. */
  function ChannelAt(px: PixCol, o: Offsets, lane: int): byte
  {
    if o.r == lane then px.r else if o.g == lane then px.g else if o.b == lane then px.b else 0
  }

  /** When the offsets are distinct, lane `lane` of a word is exactly the
      channel with that offset, and a lane no channel uses is zero. */
  lemma LaneOfDistinctOffsets(px: PixCol, o: Offsets, lane: int)
    requires o.r != o.g && o.g != o.b && o.r != o.b
    ensures Lane(px, o, lane) == ByteBits(ChannelAt(px, o, lane))
  {
    OrZero(ByteBits(px.r));
    OrZero(ByteBits(px.g));
    OrZero(ByteBits(px.b));
    OrZero(ZeroBits(8));
    ZeroByteBits();
  }

  /** For an `ORDER_*` permutation the word's bytes, from the top, are the
      channels in the order the strip expects them (for GRB: green, red,
      blue); an SK6812W word ends with the zero white byte. */
  lemma WordIsChannelsInOrder(px: PixCol, order: byte)
    requires IsRgbPermutation(order)
    ensures var o := Offsets(RField(order), GField(order), BField(order));
      && Word(WS2812B, px, o) == ByteBits(ChannelAt(px, o, 0)) + ByteBits(ChannelAt(px, o, 1)) + ByteBits(ChannelAt(px, o, 2))
      && Word(SK6812W, px, o) == Word(WS2812B, px, o) + ByteBits(0)
  {
    var o := Offsets(RField(order), GField(order), BField(order));
    LaneOfDistinctOffsets(px, o, 0);
    LaneOfDistinctOffsets(px, o, 1);
    LaneOfDistinctOffsets(px, o, 2);
    LaneOfDistinctOffsets(px, o, 3);
    ZeroByteBits();
    OrZero(ZeroBits(8));
  }

  /** Each channel lands in the position its offset names. */
  lemma ChannelAtOffsets(px: PixCol, order: byte)
    requires IsRgbPermutation(order)
    ensures var o := Offsets(RField(order), GField(order), BField(order));
      && ChannelAt(px, o, o.r) == px.r && ChannelAt(px, o, o.g) == px.g && ChannelAt(px, o, o.b) == px.b
      && ChannelAt(px, o, 3) == 0
  {
  }

  /** Bit `k` of pixel `i`'s word sits at position `width * i + k` of the
      stream, which holds exactly `width` bits per pixel. */
  lemma StreamIndex(ledType: byte, pixels: seq<PixCol>, o: Offsets, i: nat, k: nat)
    requires i < |pixels| && k < Width(ledType)
    ensures |Stream(ledType, pixels, o)| == Width(ledType) * |pixels|
    ensures Width(ledType) * i + k < |Stream(ledType, pixels, o)|
    ensures Stream(ledType, pixels, o)[Width(ledType) * i + k] == Word(ledType, pixels[i], o)[k]
  {
    ConcatIndex(Words(ledType, pixels, o), Width(ledType), i, k);
  }

  lemma MulStep(w: nat, m: nat)
    ensures w * m + w == w * (m + 1)
  {
  }

  lemma MulMono(w: nat, i: nat, m: nat)
    requires i < m
    ensures w * i + w <= w * m
  {
    var d := m - i - 1;
    assert w * m == w * i + w + w * d by {
      assert m == i + 1 + d;
    }
  }

  /** The busy-wait's exit test: unsigned 32-bit `now - end >= gap`. */
  predicate GapElapsed(now: u32, end: u32, gap: nat): (elapsed: bool)
    ensures now >= end ==> (elapsed <==> now - end >= gap)
    ensures now < end ==> (elapsed <==> now + U32_MOD - end >= gap)
  {
    SubU32(now, end) >= gap
  }

  /** The reset gap in microseconds required before the next frame. */
  function ResetGap(ledType: byte): (gap: nat)
    ensures ledType == WS2812B ==> gap == 300
    ensures ledType == SK6812W ==> gap == 80
    ensures ledType != WS2812B && ledType != SK6812W ==> gap == 50
  {
    if ledType == WS2812B then 300 else if ledType == SK6812W then 80 else 50
  }

  /** The wait tolerates the microsecond counter wrapping: if `now` is the
      end time plus `e` microseconds, taken modulo 2^32, the wait is over
      exactly when `e` reaches the gap, whether or not the counter wrapped. */
  lemma GapElapsedAcrossRollover(end: u32, e: int, gap: nat)
    requires 0 <= e < U32_MOD
    ensures GapElapsed((end + e) % U32_MOD, end, gap) <==> e >= gap
  {
    var now := (end + e) % U32_MOD;
    if end + e < U32_MOD {
      assert now == end + e;
      assert SubU32(now, end) == e;
    } else {
      assert now == end + e - U32_MOD;
      assert now - end == e - U32_MOD;
      assert SubU32(now, end) == e;
    }
  }

  /** The bit loop: send the bits of one word from the top. */
  method SendWord(sent: seq<bool>, word: seq<bool>) returns (r: seq<bool>)
    ensures r == sent + word
  {
    r := sent;
    var k := 0;
    while k < |word|
      invariant 0 <= k <= |word|
      invariant r == sent + word[..k]
    {
      r := r + [word[k]];
      k := k + 1;
    }
    assert word[..k] == word;
  }

  lemma StreamSnoc(ledType: byte, pixels: seq<PixCol>, o: Offsets, i: nat)
    requires i < |pixels|
    ensures Stream(ledType, pixels[..i + 1], o) == Stream(ledType, pixels[..i], o) + Word(ledType, pixels[i], o)
  {
    var ws := Words(ledType, pixels[..i + 1], o);
    assert ws[..i] == Words(ledType, pixels[..i], o);
  }

  /** The pixel loop of `update`: pack each pixel's word and send it. */
  method Emit(ledType: byte, pixels: seq<PixCol>, o: Offsets) returns (sent: seq<bool>)
    requires Packable(ledType, o)
    ensures sent == Stream(ledType, pixels, o)
  {
    sent := [];
    var i := 0;
    while i < |pixels|
      invariant 0 <= i <= |pixels|
      invariant sent == Stream(ledType, pixels[..i], o)
    {
      var word := Word(ledType, pixels[i], o);
      sent := SendWord(sent, word);
      StreamSnoc(ledType, pixels, o, i);
      i := i + 1;
    }
    assert pixels[..i] == pixels;
  }

  /** `update(forceRefresh)`: nothing happens without a pixel buffer or
      without a pending or forced refresh. Otherwise the whole stream is sent
      (nothing for an unsupported type), the end time is taken from the
      clock, passed in as `finishMicros`, and the flag is cleared. */
  method Update(s: BbStrip, forceRefresh: bool, finishMicros: u32) returns (r: BbStrip, sent: Option<seq<bool>>)
    requires Packable(s.ledType, s.offsets)
    ensures s.pixels.None? || (!s.refresh && !forceRefresh) ==> r == s && sent == None
    ensures s.pixels.Some? && (s.refresh || forceRefresh) ==>
      && r == s.(refresh := false, endMicros := finishMicros)
      && sent == Some(Stream(s.ledType, s.pixels.value, s.offsets))
    ensures s.pixels.Some? && (s.refresh || forceRefresh) && s.ledType != WS2812B && s.ledType != SK6812W
      ==> sent == Some([])
  {
    if s.pixels.None? || (!s.refresh && !forceRefresh) {
      return s, None;
    }
    var bits := Emit(s.ledType, s.pixels.value, s.offsets);
    ConcatLength(Words(s.ledType, s.pixels.value, s.offsets), Width(s.ledType));
    r := s.(refresh := false, endMicros := finishMicros);
    sent := Some(bits);
  }
}

=== FILE: bits.dfy ===
/** Bytes, unsigned 32-bit words and most-significant-bit-first bit lists. */
module Bits {

  /** An 8-bit unsigned value (`byte`, `uint8_t`). */
  type byte = x: int | 0 <= x < 256

  /** The modulus of 32-bit unsigned arithmetic. */
  const U32_MOD: int := 0x1_0000_0000

  /** A 32-bit unsigned value (`uint32_t`, `system_tick_t`, `unsigned long`). */
  type u32 = x: int | 0 <= x < U32_MOD

  /** Unsigned 32-bit subtraction, which wraps around modulo 2^32. */
  function SubU32(a: u32, b: u32): (d: u32)
    ensures (b + d) % U32_MOD == a
  {
    (a - b) % U32_MOD
  }

  /** The eight bits of `b`, most significant first: element k is the bit
      that the mask `0x80 >> k` selects. Each quotient halves the previous one,
      so element k is `(b >> (7 - k)) & 1`. */
  function ByteBits(b: byte): (bits: seq<bool>)
    ensures |bits| == 8
  {
    var q1 := b / 2; var q2 := q1 / 2; var q3 := q2 / 2; var q4 := q3 / 2;
    var q5 := q4 / 2; var q6 := q5 / 2; var q7 := q6 / 2;
    [q7 % 2 == 1, q6 % 2 == 1, q5 % 2 == 1, q4 % 2 == 1,
     q3 % 2 == 1, q2 % 2 == 1, q1 % 2 == 1, b % 2 == 1]
  }

  /** The weight a set bit contributes. */
  function Weight(bit: bool, w: nat): nat
  {
    if bit then w else 0
  }

  /** The byte whose bits, most significant first, are `bits`. */
  function FromBits(bits: seq<bool>): byte
    requires |bits| == 8
  {
    Weight(bits[0], 128) + Weight(bits[1], 64) + Weight(bits[2], 32) + Weight(bits[3], 16)
    + Weight(bits[4], 8) + Weight(bits[5], 4) + Weight(bits[6], 2) + Weight(bits[7], 1)
  }

  /** A byte is the weighted sum of its halving quotients' low bits. */
  lemma Reconstruct(b: byte)
    ensures var q1 := b / 2; var q2 := q1 / 2; var q3 := q2 / 2; var q4 := q3 / 2;
            var q5 := q4 / 2; var q6 := q5 / 2; var q7 := q6 / 2;
            b == Weight(q7 % 2 == 1, 128) + Weight(q6 % 2 == 1, 64) + Weight(q5 % 2 == 1, 32)
               + Weight(q4 % 2 == 1, 16) + Weight(q3 % 2 == 1, 8) + Weight(q2 % 2 == 1, 4)
               + Weight(q1 % 2 == 1, 2) + Weight(b % 2 == 1, 1)
  {
    var q1 := b / 2; var q2 := q1 / 2; var q3 := q2 / 2; var q4 := q3 / 2;
    var q5 := q4 / 2; var q6 := q5 / 2; var q7 := q6 / 2;
    assert q7 < 2;
    // each bit's weight is what its quotient adds over twice the next one
    assert Weight(q7 % 2 == 1, 128) == 128 * q7;
    assert Weight(q6 % 2 == 1, 64) == 64 * (q6 - 2 * q7);
    assert Weight(q5 % 2 == 1, 32) == 32 * (q5 - 2 * q6);
    assert Weight(q4 % 2 == 1, 16) == 16 * (q4 - 2 * q5);
    assert Weight(q3 % 2 == 1, 8) == 8 * (q3 - 2 * q4);
    assert Weight(q2 % 2 == 1, 4) == 4 * (q2 - 2 * q3);
    assert Weight(q1 % 2 == 1, 2) == 2 * (q1 - 2 * q2);
    assert Weight(b % 2 == 1, 1) == b - 2 * q1;
  }

  /** Reading a byte's bits back gives the byte. */
  lemma FromByteBits(b: byte)
    ensures FromBits(ByteBits(b)) == b
  {
    Reconstruct(b);
  }

  lemma ByteBitsInjective(a: byte, b: byte)
    ensures ByteBits(a) == ByteBits(b) <==> a == b
  {
    if ByteBits(a) == ByteBits(b) {
      FromByteBits(a);
      FromByteBits(b);
    }
  }

  /** The bit list of the byte 0. */
  function ZeroBits(n: nat): (bits: seq<bool>)
    ensures |bits| == n
    ensures forall k :: 0 <= k < n ==> !bits[k]
  {
    seq(n, _ => false)
  }

  /** Bitwise OR of two equally long bit lists. */
  function OrBits(a: seq<bool>, b: seq<bool>): (r: seq<bool>)
    requires |a| == |b|
    ensures |r| == |a|
    ensures forall k :: 0 <= k < |r| ==> (r[k] <==> a[k] || b[k])
  {
    seq(|a|, k requires 0 <= k < |a| => a[k] || b[k])
  }

  lemma ZeroByteBits()
    ensures ByteBits(0) == ZeroBits(8)
  {
  }

  /** All-zero bits are the identity of `OrBits`. */
  lemma OrZero(a: seq<bool>)
    ensures OrBits(a, ZeroBits(|a|)) == a
    ensures OrBits(ZeroBits(|a|), a) == a
  {
  }
}

=== FILE: candy_cane.dfy ===
/** Helpers of the candy-cane example animation: wrapped scroll positions,
    randomly scheduled direction changes, a bounded stretch factor and the
    power-saving pixel pattern. `random(min, max)` becomes a `draw`
    parameter in [min, max); stretch values are reals. */
module CandyCane {
  import opened CArith
  import opened Color
  import opened Animation

  /** The parts of `CandyCaneConfig` these helpers read and write. */
  datatype Config = Config(
    powerSaveMode: bool,
    minDirectionTime: int, maxDirectionTime: int,
    minStretchDirectionTime: int, maxStretchDirectionTime: int,
    minStretchMultiplier: real, maxStretchMultiplier: real,
    stretchStepSize: real, stretchStepInterval: int,
    movingRight: bool, currentStretch: real, stretchingOut: bool,
    lastDirectionChange: int, nextDirectionChange: int,
    lastStretchStep: int, nextStretchDirectionChange: int)

  /** `calculatePosition`: the scroll offset wrapped into the strip, mirrored
      when moving left. Both `%` are C's. */
  function CalculatePosition(basePosition: int, totalPixels: int, movingRight: bool): (p: int)
    requires totalPixels > 0
    ensures basePosition >= 0 ==> 0 <= p < totalPixels
    ensures !movingRight ==> 0 <= p < totalPixels
  {
    if movingRight then CMod(basePosition, totalPixels)
    else CMod(totalPixels - CMod(basePosition, totalPixels), totalPixels)
  }

  /** Moving left mirrors moving right: the two positions add up to a whole
      number of strips, and whole strips map to position 0 either way. */
  lemma PositionsMirror(basePosition: int, totalPixels: int)
    requires totalPixels > 0 && basePosition >= 0
    ensures (CalculatePosition(basePosition, totalPixels, true)
             + CalculatePosition(basePosition, totalPixels, false)) % totalPixels == 0
    ensures basePosition % totalPixels == 0 ==>
      CalculatePosition(basePosition, totalPixels, true) == 0
      && CalculatePosition(basePosition, totalPixels, false) == 0
  {
    var n := totalPixels;
    var r := basePosition % n;
    var right := CalculatePosition(basePosition, n, true);
    var left := CalculatePosition(basePosition, n, false);
    assert right == r;
    ModAddOnce(0, n);
    if r == 0 {
      assert left == CMod(n, n) == 0;
      assert right + left == 0;
    } else {
      assert 0 < n - r < n;
      assert left == n - r;
      assert right + left == n;
    }
  }

  /** `scheduleNextEvent(t, min, max)` with `draw` the random interval. */
  function ScheduleNextEvent(currentTime: int, minInterval: int, maxInterval: int, draw: int): (t: int)
    requires minInterval <= draw < maxInterval
    ensures currentTime + minInterval <= t < currentTime + maxInterval
  {
    currentTime + draw
  }

  /** `updateDirection`: once the scheduled time has come, reverse and
      schedule the next reversal; before then change nothing. */
  function UpdateDirection(c: Config, currentTime: int, draw: int): (r: Config)
    requires c.minDirectionTime <= draw < c.maxDirectionTime
    ensures currentTime < c.nextDirectionChange ==> r == c
    ensures currentTime >= c.nextDirectionChange ==>
      && r.movingRight == !c.movingRight
      && r.lastDirectionChange == currentTime
      && currentTime + c.minDirectionTime <= r.nextDirectionChange < currentTime + c.maxDirectionTime
      && r == c.(movingRight := r.movingRight, lastDirectionChange := r.lastDirectionChange,
                 nextDirectionChange := r.nextDirectionChange)
  {
    if currentTime >= c.nextDirectionChange then
      c.(movingRight := !c.movingRight,
         lastDirectionChange := currentTime,
         nextDirectionChange := ScheduleNextEvent(currentTime, c.minDirectionTime, c.maxDirectionTime, draw))
    else c
  }

  /** The stretch limits are ordered and the step is not negative. */
  predicate StretchLimits(c: Config)
  {
    c.minStretchMultiplier <= c.maxStretchMultiplier && c.stretchStepSize >= 0.0
  }

  predicate StretchInRange(c: Config)
  {
    c.minStretchMultiplier <= c.currentStretch <= c.maxStretchMultiplier
  }

  /** `updateStretch`: possibly reverse the stretch direction, then, once the
      step interval has passed, move the stretch one step that way and clamp
      it to the limits. */
  function UpdateStretch(c: Config, currentTime: int, draw: int): (r: Config)
    requires StretchLimits(c)
    requires c.minStretchDirectionTime <= draw < c.maxStretchDirectionTime
    ensures StretchLimits(r)
    ensures currentTime >= c.lastStretchStep + c.stretchStepInterval ==>
      StretchInRange(r) && r.lastStretchStep == currentTime
    ensures currentTime < c.lastStretchStep + c.stretchStepInterval ==>
      r.currentStretch == c.currentStretch && r.lastStretchStep == c.lastStretchStep
    ensures StretchInRange(c) ==> StretchInRange(r)
    ensures r.stretchingOut == (if currentTime >= c.nextStretchDirectionChange then !c.stretchingOut else c.stretchingOut)
    ensures StretchInRange(c) && r.stretchingOut ==> c.currentStretch <= r.currentStretch <= c.currentStretch + c.stretchStepSize
    ensures StretchInRange(c) && !r.stretchingOut ==> c.currentStretch - c.stretchStepSize <= r.currentStretch <= c.currentStretch
    ensures r.nextStretchDirectionChange ==
      (if currentTime >= c.nextStretchDirectionChange then currentTime + draw else c.nextStretchDirectionChange)
    ensures currentTime >= c.nextStretchDirectionChange ==>
      currentTime + c.minStretchDirectionTime <= r.nextStretchDirectionChange < currentTime + c.maxStretchDirectionTime
    ensures r == c.(stretchingOut := r.stretchingOut, nextStretchDirectionChange := r.nextStretchDirectionChange,
                    currentStretch := r.currentStretch, lastStretchStep := r.lastStretchStep)
  {
    var c1 :=
      if currentTime >= c.nextStretchDirectionChange then
        c.(stretchingOut := !c.stretchingOut, nextStretchDirectionChange := currentTime + draw)
      else c;
    if currentTime >= c1.lastStretchStep + c1.stretchStepInterval then
      var stepped :=
        if c1.stretchingOut then
          (if c1.currentStretch < c1.maxStretchMultiplier then c1.currentStretch + c1.stretchStepSize else c1.currentStretch)
        else
          (if c1.currentStretch > c1.minStretchMultiplier then c1.currentStretch - c1.stretchStepSize else c1.currentStretch);
      c1.(currentStretch := Constrain(stepped, c1.minStretchMultiplier, c1.maxStretchMultiplier),
          lastStretchStep := currentTime)
    else c1
  }

  /** The pattern index `candy_cane_animation` looks up for pixel `i`. */
  function AdjustedPos(i: int, position: int, n: int, powerSave: bool): (p: int)
    requires n > 0
    ensures i + position >= 0 ==> 0 <= p < n
    ensures i + position >= 0 && !powerSave ==> p == (i + position) % n
    ensures i + position >= 0 && powerSave ==> 2 * p <= (i + position) % n <= 2 * p + 1
  {
    var a := CMod(i + position, n);
    if powerSave then CDiv(a, 2) else a
  }

  /** The pattern repeats with the strip: shifting the pixel by a whole
      strip gives the same index. */
  lemma {:induction false} AdjustedPosPeriodic(i: int, position: int, n: int, powerSave: bool)
    requires n > 0 && i + position >= 0
    ensures AdjustedPos(i + n, position, n, powerSave) == AdjustedPos(i, position, n, powerSave)
  {
    ModAddOnce(i + position, n);
    assert i + n + position == (i + position) + n;
  }

  /** The pixel loop of `candy_cane_animation`. `isRed` stands for the float
      `isRedSegment` test at the current stretch. In power-save mode every
      odd pixel goes black; every other pixel takes palette colour 0 (red)
      or 1 (white). */
  method Render(d: AniData, powerSave: bool, position: int, isRed: int -> bool) returns (r: AniData)
    requires |d.pixels| > 0 && HasPalette(d)
    ensures r == d.(pixels := r.pixels) && |r.pixels| == |d.pixels|
    ensures forall i :: 0 <= i < |r.pixels| && powerSave && i % 2 == 1 ==> r.pixels[i] == Black
    ensures forall i :: 0 <= i < |r.pixels| && !(powerSave && i % 2 == 1) ==>
      r.pixels[i] == PaletteColor(d, if isRed(AdjustedPos(i, position, |d.pixels|, powerSave)) then 0 else 1)
    ensures forall i :: 0 <= i < |r.pixels| && !(powerSave && i % 2 == 1) ==>
      r.pixels[i] in d.palette.value.colors[..d.palette.value.count]
  {
    var px := d.pixels;
    var n := |d.pixels|;
    var i := 0;
    while i < n
      invariant 0 <= i <= n == |px|
      invariant forall j :: 0 <= j < i && powerSave && j % 2 == 1 ==> px[j] == Black
      invariant forall j :: 0 <= j < i && !(powerSave && j % 2 == 1) ==>
        px[j] == PaletteColor(d, if isRed(AdjustedPos(j, position, n, powerSave)) then 0 else 1)
    {
      if powerSave && i % 2 == 1 {
        px := px[i := Black];
      } else {
        var red := isRed(AdjustedPos(i, position, n, powerSave));
        px := px[i := PaletteColor(d, if red then 0 else 1)];
      }
      i := i + 1;
    }
    r := d.(pixels := px);
  }
}

=== FILE: carith.dfy ===
/** Integer operations with the semantics of C/C++ on the target platform. */
module CArith {

  /** C's `/`: the quotient truncated toward zero (Dafny's own `/` is Euclidean). */
  function CDiv(a: int, b: int): (q: int)
    requires b > 0
    ensures a >= 0 ==> q == a / b
    ensures a < 0 ==> q <= 0
  {
    if a >= 0 then a / b else -((-a) / b)
  }

  /** C's `%`: the remainder takes the sign of the dividend. */
  function CMod(a: int, b: int): (m: int)
    requires b > 0
    ensures b * CDiv(a, b) + m == a
    ensures a >= 0 ==> 0 <= m < b && m == a % b
    ensures a < 0 ==> -b < m <= 0
  {
    if a >= 0 then a % b else -((-a) % b)
  }

  /** Arduino's `constrain(v, lo, hi)` macro: `v < lo ? lo : (v > hi ? hi : v)`. */
  function Constrain(v: real, lo: real, hi: real): (r: real)
    requires lo <= hi
    ensures lo <= r <= hi
    ensures lo <= v <= hi ==> r == v
  {
    if v < lo then lo else if v > hi then hi else v
  }

  /** Adding whole multiples of the modulus leaves a remainder unchanged. */
  lemma {:induction false} ModAddMultiple(i: int, k: nat, n: int)
    requires n > 0
    ensures (i + k * n) % n == i % n
    decreases k
  {
    if k > 0 {
      var j := i + (k - 1) * n;
      ModAddMultiple(i, k - 1, n);
      assert i + k * n == j + n;
      ModAddOnce(j, n);
    }
  }

  lemma ModAddOnce(j: int, n: int)
    requires n > 0
    ensures (j + n) % n == j % n
  {
    var q, r := j / n, j % n;
    var q', r' := (j + n) / n, (j + n) % n;
    var d := q + 1 - q';
    MulSub(q + 1, q', n);
    assert (q + 1) * n == q * n + n;
    assert d * n == r' - r;
    MulBound(d, n);
  }

  lemma MulBound(d: int, n: int)
    requires n > 0
    ensures d >= 1 ==> d * n >= n
    ensures d <= -1 ==> d * n <= -n
  {
  }

  lemma MulSub(a: int, b: int, n: int)
    ensures (a - b) * n == a * n - b * n
  {
  }
}

=== FILE: channel_order.dfy ===
/** The `ORDER_*` colour-order descriptors: a byte holding one 2-bit field per
    channel (red at bits 0-1, green at 2-3, blue at 4-5, white at 6-7). The
    field value is the channel's position in the order the strip expects. */
module ChannelOrder {
  import opened Bits

  /** LED chip types. */
  const WS2812B: byte := 0x02
  const SK6812W: byte := 0x06

  const ORDER_RGB: byte := 0 + 1 * 4 + 2 * 16
  const ORDER_RBG: byte := 0 + 2 * 4 + 1 * 16
  const ORDER_GRB: byte := 1 + 0 * 4 + 2 * 16
  const ORDER_GBR: byte := 2 + 0 * 4 + 1 * 16
  const ORDER_BRG: byte := 1 + 2 * 4 + 0 * 16
  const ORDER_BGR: byte := 2 + 1 * 4 + 0 * 16

  /** `order & 3`, `(order >> 2) & 3`, `(order >> 4) & 3`, `(order >> 6) & 3`. */
  function RField(order: byte): (f: int) ensures 0 <= f < 4 { order % 4 }
  function GField(order: byte): (f: int) ensures 0 <= f < 4 { (order / 4) % 4 }
  function BField(order: byte): (f: int) ensures 0 <= f < 4 { (order / 16) % 4 }
  function WField(order: byte): (f: int) ensures 0 <= f < 4 { (order / 64) % 4 }

  /** Red, green and blue occupy three distinct positions among 0, 1, 2. */
  predicate IsRgbPermutation(order: byte)
  {
    RField(order) <= 2 && GField(order) <= 2 && BField(order) <= 2
    && RField(order) != GField(order) && GField(order) != BField(order) && RField(order) != BField(order)
  }

  /** The four fields are a permutation of 0, 1, 2, 3 with white not first:
      the layout of a four-channel order. */
  predicate IsRgbwPermutation(order: byte)
  {
    WField(order) != 0
    && RField(order) != GField(order) && GField(order) != BField(order) && RField(order) != BField(order)
    && RField(order) != WField(order) && GField(order) != WField(order) && BField(order) != WField(order)
  }

  /** The fields determine the descriptor. */
  lemma FieldsDetermineOrder(order: byte)
    ensures order == RField(order) + 4 * GField(order) + 16 * BField(order) + 64 * WField(order)
  {
    var q1 := order / 4;
    var q2 := q1 / 4;
    assert order / 16 == q2;
    assert order / 64 == q2 / 4;
  }

  /** Each `ORDER_*` constant decodes to a permutation of {0, 1, 2} and names
      the order in which its channels are sent. */
  lemma OrderConstantsArePermutations()
    ensures IsRgbPermutation(ORDER_RGB) && RField(ORDER_RGB) == 0 && GField(ORDER_RGB) == 1 && BField(ORDER_RGB) == 2
    ensures IsRgbPermutation(ORDER_RBG) && RField(ORDER_RBG) == 0 && BField(ORDER_RBG) == 1 && GField(ORDER_RBG) == 2
    ensures IsRgbPermutation(ORDER_GRB) && GField(ORDER_GRB) == 0 && RField(ORDER_GRB) == 1 && BField(ORDER_GRB) == 2
    ensures IsRgbPermutation(ORDER_GBR) && GField(ORDER_GBR) == 0 && BField(ORDER_GBR) == 1 && RField(ORDER_GBR) == 2
    ensures IsRgbPermutation(ORDER_BRG) && BField(ORDER_BRG) == 0 && RField(ORDER_BRG) == 1 && GField(ORDER_BRG) == 2
    ensures IsRgbPermutation(ORDER_BGR) && BField(ORDER_BGR) == 0 && GField(ORDER_BGR) == 1 && RField(ORDER_BGR) == 2
    ensures WField(ORDER_RGB) == WField(ORDER_RBG) == WField(ORDER_GRB) == 0
    ensures WField(ORDER_GBR) == WField(ORDER_BRG) == WField(ORDER_BGR) == 0
  {
  }

  /** Conversely, the six constants are the only three-channel descriptors
      that are permutations. */
  lemma RgbPermutationsAreTheConstants(order: byte)
    requires WField(order) == 0
    ensures IsRgbPermutation(order) <==>
      order in {ORDER_RGB, ORDER_RBG, ORDER_GRB, ORDER_GBR, ORDER_BRG, ORDER_BGR}
  {
    FieldsDetermineOrder(order);
  }
}

=== FILE: color.dfy ===
/** `PixCol`: a pixel colour of three 8-bit channels, its 0xRRGGBB packing,
    channel-wise equality and the integer sector-based HSV conversion. */
module Color {
  import opened Bits
  import opened CArith

  datatype PixCol = PixCol(r: byte, g: byte, b: byte)

  /** The default-constructed colour. */
  const Black: PixCol := PixCol(0, 0, 0)

  /** Largest value a 0xRRGGBB packing can take, plus one. */
  const RGB_LIMIT: int := 0x100_0000

  /** A colour whose three channels are equal. */
  function Grey(v: byte): PixCol
  {
    PixCol(v, v, v)
  }

  /** `PixCol(uint32_t)`: channel k is the byte `(x >> 8k) & 0xFF`. */
  function FromRgb(x: u32): (c: PixCol)
    ensures x == (x / RGB_LIMIT) * RGB_LIMIT + c.r * 0x1_0000 + c.g * 0x100 + c.b
  {
    var q1 := x / 256;
    var q2 := q1 / 256;
    assert x / 0x1_0000 == q2;
    assert x == 256 * q1 + x % 256;
    assert q1 == 256 * q2 + q1 % 256;
    assert q2 == 256 * (q2 / 256) + q2 % 256;
    assert x / RGB_LIMIT == q2 / 256;
    PixCol((x / 0x1_0000) % 256, (x / 0x100) % 256, x % 256)
  }

  /** `rgb()`: the channels shifted to bits 16, 8 and 0; the shifted fields
      are disjoint, so their bitwise OR is their sum. */
  function Rgb(c: PixCol): (x: u32)
    ensures x < RGB_LIMIT
  {
    c.r * 0x1_0000 + c.g * 0x100 + c.b
  }

  /** Packing after unpacking keeps the low 24 bits of the word. */
  lemma RgbOfFromRgb(x: u32)
    ensures Rgb(FromRgb(x)) == x % RGB_LIMIT
  {
    var q1 := x / 256;
    var q2 := q1 / 256;
    var q3 := q2 / 256;
    assert x / 0x1_0000 == q2;
    var low := q2 % 256 * 0x1_0000 + q1 % 256 * 0x100 + x % 256;
    assert x == 256 * q1 + x % 256;
    assert q1 == 256 * q2 + q1 % 256;
    assert q2 == 256 * q3 + q2 % 256;
    assert x == q3 * RGB_LIMIT + low;
    assert 0 <= low < RGB_LIMIT;
  }

  /** Unpacking a packed colour gives the colour back. */
  lemma FromRgbOfRgb(c: PixCol)
    ensures FromRgb(Rgb(c)) == c
  {
    var x := Rgb(c);
    assert x / 256 == c.r * 256 + c.g;
    assert (x / 256) / 256 == c.r;
    assert x / 0x1_0000 == c.r;
  }

  /** Distinct colours pack to distinct words. */
  lemma RgbInjective(a: PixCol, b: PixCol)
    ensures Rgb(a) == Rgb(b) <==> a == b
  {
    if Rgb(a) == Rgb(b) {
      FromRgbOfRgb(a);
      FromRgbOfRgb(b);
    }
  }

  /** `operator ==`: all three channels agree. */
  predicate Equal(a: PixCol, b: PixCol): (eq: bool)
    ensures eq <==> a == b
  {
    a.r == b.r && a.g == b.g && a.b == b.b
  }

  /** `operator !=`: some channel differs. */
  predicate NotEqual(a: PixCol, b: PixCol): (ne: bool)
    ensures ne <==> a != b
  {
    a.r != b.r || a.g != b.g || a.b != b.b
  }

  /** `==` is identity of colours and `!=` is exactly its negation. */
  lemma EqualityOperators(a: PixCol, b: PixCol)
    ensures Equal(a, b) <==> a == b
    ensures NotEqual(a, b) <==> !Equal(a, b)
  {
  }

  // ---------------------------------------------------------------------
  // HSV
  // ---------------------------------------------------------------------

  /** `base`: the value of the weakest channel, `((255 - sat) * val) >> 8`. */
  function HsvBase(sat: byte, val: byte): (base: int)
    ensures 0 <= base <= val
  {
    BaseStep(255 - sat, val);
    ((255 - sat) * val) / 256
  }

  lemma BaseStep(w: int, val: byte)
    requires 0 <= w <= 255
    ensures 0 <= (w * val) / 256 <= val
  {
    var p := w * val;
    assert 0 <= p <= 256 * val by {
      assert 256 * val - p == (256 - w) * val;
    }
  }

  /** A channel that moves linearly from `base` (k = 0) to `val` (k = 60). */
  function Ramp(base: int, val: byte, k: int): (c: byte)
    requires 0 <= base <= val
    requires 0 <= k <= 60
    ensures base <= c <= val
    ensures k == 0 ==> c == base
    ensures k == 60 ==> c == val
  {
    RampStep(val - base, k);
    ((val - base) * k) / 60 + base
  }

  lemma RampStep(d: int, k: int)
    requires 0 <= d && 0 <= k <= 60
    ensures 0 <= (d * k) / 60 <= d
    ensures k == 0 ==> (d * k) / 60 == 0
    ensures k == 60 ==> (d * k) / 60 == d
  {
    var p := d * k;
    assert 0 <= p <= d * 60 by {
      assert d * 60 - p == d * (60 - k);
    }
  }

  /** The `switch (hue / 60)` of `hsv` for a hue already normalised into
      [0, 360]; a sector outside 0..5 leaves every channel at `val`. */
  function Sector(h: int, sat: byte, val: byte): (c: PixCol)
    requires 0 <= h <= 360
    ensures h == 360 ==> c == Grey(val)
    ensures h < 360 ==> SectorShape(c, HsvBase(sat, val), val)
    ensures h < 60 || 300 <= h < 360 ==> c.r == val
    ensures 60 <= h < 180 ==> c.g == val
    ensures 180 <= h < 300 ==> c.b == val
  {
    var base := HsvBase(sat, val);
    match h / 60
    case 0 => PixCol(val, Ramp(base, val, h), base)
    case 1 => PixCol(Ramp(base, val, 60 - h % 60), val, base)
    case 2 => PixCol(base, val, Ramp(base, val, h % 60))
    case 3 => PixCol(base, Ramp(base, val, 60 - h % 60), val)
    case 4 => PixCol(Ramp(base, val, h % 60), base, val)
    case 5 => PixCol(val, base, Ramp(base, val, 60 - h % 60))
    case _ => Grey(val)
  }

  /** `hue < 0 ? 360 + hue % 360 : hue % 360` with C's truncating `%`. */
  function NormalizeHue(hue: int): (h: int)
    ensures 0 <= h <= 360
    ensures h % 360 == hue % 360
    ensures h == 360 <==> hue < 0 && hue % 360 == 0
  {
    if hue < 0 then 360 + CMod(hue, 360) else hue % 360
  }

  /** The shape of an HSV colour: one channel is `hi`, one is `lo`, and the
      remaining one lies between them. */
  predicate SectorShape(c: PixCol, lo: int, hi: int)
  {
    lo <= c.r <= hi && lo <= c.g <= hi && lo <= c.b <= hi
    && (c.r == hi || c.g == hi || c.b == hi)
    && (c.r == lo || c.g == lo || c.b == lo)
  }

  /** `PixCol::hsv(int, byte, byte)` as written. */
  function Hsv(hue: int, sat: byte, val: byte): (c: PixCol)
    ensures sat == 0 ==> c == Grey(val)
    ensures sat > 0 && NormalizeHue(hue) < 360 ==> SectorShape(c, HsvBase(sat, val), val)
    ensures NormalizeHue(hue) == 360 ==> c == Grey(val)
    ensures c.r <= val && c.g <= val && c.b <= val
  {
    if sat == 0 then Grey(val) else Sector(NormalizeHue(hue), sat, val)
  }

  /** For non-negative hues only the hue modulo 360 matters. */
  lemma HsvPeriodicNonNegative(hue: int, sat: byte, val: byte)
    requires hue >= 0
    ensures Hsv(hue, sat, val) == Hsv(hue % 360, sat, val)
    ensures Hsv(hue + 360, sat, val) == Hsv(hue, sat, val)
  {
  }

  /** A negative hue that is not a multiple of 360 behaves like its
      representative in [0, 360). */
  lemma HsvNegative(hue: int, sat: byte, val: byte)
    requires hue < 0 && hue % 360 != 0
    ensures Hsv(hue, sat, val) == Hsv(hue % 360, sat, val)
  {
    assert NormalizeHue(hue) == hue % 360;
  }

  /** A negative multiple of 360 normalises to 360, which matches no sector,
      so `hsv` returns grey however saturated the request. */
  lemma HsvNegativeMultipleIsGrey(hue: int, sat: byte, val: byte)
    requires hue < 0 && hue % 360 == 0
    ensures Hsv(hue, sat, val) == Grey(val)
  {
    assert NormalizeHue(hue) == 360;
  }

  /** The discrepancy on one input: fully saturated hue -360 is white, while
      hue 0 is red. */
  lemma HsvMinus360IsWhite()
    ensures Hsv(-360, 255, 255) == PixCol(255, 255, 255)
    ensures Hsv(0, 255, 255) == PixCol(255, 0, 0)
    ensures Hsv(-360, 255, 255) != Hsv(0, 255, 255)
  {
    HsvNegativeMultipleIsGrey(-360, 255, 255);
    HsvZeroIsRed(255);
  }

  /** Hue 0 at full saturation is pure red of the requested value. */
  lemma HsvZeroIsRed(val: byte)
    ensures Hsv(0, 255, val) == PixCol(val, 0, 0)
  {
    assert NormalizeHue(0) == 0;
    assert Sector(0, 255, val) == PixCol(val, 0, 0) by {
      assert HsvBase(255, val) == 0;
    }
  }

  /** `hsv` with the hue reduced by a modulo that is never negative, so that
      every hue, negative or not, lands in [0, 360). */
  function HsvWrapped(hue: int, sat: byte, val: byte): (c: PixCol)
    ensures sat == 0 ==> c == Grey(val)
    ensures sat > 0 ==> SectorShape(c, HsvBase(sat, val), val)
  {
    if sat == 0 then Grey(val) else Sector(hue % 360, sat, val)
  }

  /** The wrapped conversion is periodic in the hue over all integers. */
  lemma HsvWrappedPeriodic(hue: int, k: int, sat: byte, val: byte)
    ensures HsvWrapped(hue + 360 * k, sat, val) == HsvWrapped(hue, sat, val)
  {
    assert (hue + 360 * k) % 360 == hue % 360;
  }

  /** The wrapped conversion agrees with `hsv` everywhere except at the
      negative multiples of 360, where `hsv` gives grey. */
  lemma HsvWrappedAgrees(hue: int, sat: byte, val: byte)
    ensures !(hue < 0 && hue % 360 == 0) ==> HsvWrapped(hue, sat, val) == Hsv(hue, sat, val)
    ensures hue < 0 && hue % 360 == 0 ==> HsvWrapped(hue, sat, val) == HsvWrapped(0, sat, val)
  {
    if sat > 0 {
      var h := hue % 360;
      if hue >= 0 {
        assert NormalizeHue(hue) == h;
      } else if h != 0 {
        assert NormalizeHue(hue) == h;
      } else {
        assert 0 % 360 == 0;
      }
    }
  }
}

=== FILE: engine.dfy ===
/** The `Pixeleds` controller: a pixel strip, an optional running animation
    function and the animation context it is called with. Time is the
    caller's millisecond clock, passed in as `now`. */
module Engine {
  import opened Wrappers
  import opened CArith
  import opened Color
  import opened Palette
  import opened Animation
  import NeoStrip

  /** The pixel buffer is shared by the strip and the animation context in
      the source; here it is held once, in `ani.pixels`, and `refresh` is the
      strip's flag. `animation` is `animationFunction` (None for null). */
  datatype Pixeleds = Pixeleds(
    animation: Option<FnPtr>,
    ani: AniData,
    animationRefresh: int,
    refresh: bool)

  /** The default of `setAnimationRefresh`: `1000 / 30` milliseconds. */
  const DEFAULT_REFRESH: int := 1000 / 30

  /** While an animation runs its cycle duration is at least 1, so the cycle
      arithmetic never divides by zero. */
  predicate Valid(s: Pixeleds)
  {
    s.animation.Some? ==> s.ani.cycleDuration >= 1
  }

  function StripOf(s: Pixeleds): NeoStrip.Strip
  {
    NeoStrip.Strip(s.ani.pixels, s.refresh)
  }

  function WithStrip(s: Pixeleds, st: NeoStrip.Strip): Pixeleds
  {
    s.(ani := s.ani.(pixels := st.pixels), refresh := st.refresh)
  }

  /** The constructor: no animation, a zeroed context over the pixels, the
      default refresh interval and a strip that wants a first refresh. */
  function New(pixels: seq<PixCol>): (s: Pixeleds)
    ensures Valid(s) && s.animation == None
    ensures s.ani.pixels == pixels && s.ani.palette == None
    ensures s.animationRefresh == 33 && s.refresh
  {
    Pixeleds(None, Empty(pixels), DEFAULT_REFRESH, NeoStrip.New(pixels).refresh)
  }

  /** `setAnimationRefresh`. */
  function SetAnimationRefresh(s: Pixeleds, interval: int): (r: Pixeleds)
    ensures r == s.(animationRefresh := interval)
    ensures Valid(s) ==> Valid(r)
  {
    s.(animationRefresh := interval)
  }

  /** `isAnimationActive`: whether an animation function is set. */
  predicate IsAnimationActive(s: Pixeleds): (active: bool)
    ensures active && Valid(s) ==> s.ani.cycleDuration >= 1
  {
    s.animation.Some?
  }

  /** The context `startAnimation` prepares before the first fire. */
  function Prepared(s: Pixeleds, palette: Option<PixPal>, cycle: int, duration: int, data: int, now: int): (a: AniData)
    ensures a.pixels == s.ani.pixels && a.palette == palette && a.data == data
    ensures a.cycleDuration >= 1 && (cycle > 0 ==> a.cycleDuration == cycle)
    ensures cycle <= 0 ==> a.cycleDuration == 1
    ensures a.start == now && a.updated == a.start && a.stop - a.start == duration
    ensures a.cycleMillis == 0 && a.cycleCount == 0
  {
    AniData(s.ani.pixels, palette, if cycle > 0 then cycle else 1, now, now + duration, now, 0, 0, data)
  }

  /** `startAnimation`: install the function unless the duration is 0, reset
      the context, call the function once at once and request a refresh. */
  function StartAnimation(s: Pixeleds, f: FnPtr, palette: Option<PixPal>, cycle: int, duration: int,
                          data: int, now: int, prog: Program): (r: Pixeleds)
    ensures Valid(r)
    ensures r.animation.Some? <==> duration != 0
    ensures r.animation.Some? ==> r.animation.value == f
    ensures r.ani == Fire(prog, f, Prepared(s, palette, cycle, duration, data, now))
    ensures r.refresh && r.animationRefresh == s.animationRefresh
  {
    var a := Prepared(s, palette, cycle, duration, data, now);
    Pixeleds(if duration != 0 then Some(f) else None, Fire(prog, f, a), s.animationRefresh,
             NeoStrip.TriggerRefresh(StripOf(s)).refresh)
  }

  /** The throttle test of `updateAnimation`. */
  predicate Due(s: Pixeleds, now: int)
  {
    s.animation.Some? && now > s.ani.updated + s.animationRefresh
  }

  /** The auto-stop test: a positive duration that has run out. */
  predicate Expired(s: Pixeleds, now: int)
  {
    s.ani.stop > s.ani.start && now > s.ani.stop
  }

  /** `updateAnimation`. */
  function UpdateAnimation(s: Pixeleds, now: int, prog: Program): (r: Pixeleds)
    requires Valid(s)
    ensures Valid(r)
    ensures !Due(s, now) ==> r == s
    ensures Due(s, now) && Expired(s, now) ==> r == s.(animation := None)
    ensures Due(s, now) && !Expired(s, now) ==>
      && r.animation == s.animation
      && r.refresh
      && r.ani.updated == now
      && r.ani.cycleCount * s.ani.cycleDuration + r.ani.cycleMillis == now - s.ani.start
      && (now >= s.ani.start ==> 0 <= r.ani.cycleMillis < s.ani.cycleDuration && r.ani.cycleCount >= 0)
      && r.ani == Fire(prog, s.animation.value, r.ani.(pixels := s.ani.pixels, data := s.ani.data))
      && r.ani.(pixels := s.ani.pixels, data := s.ani.data, updated := s.ani.updated,
                cycleMillis := s.ani.cycleMillis, cycleCount := s.ani.cycleCount) == s.ani
    ensures Due(s, now) && !Expired(s, now) && now < s.ani.start ==>
      -s.ani.cycleDuration < r.ani.cycleMillis <= 0 && r.ani.cycleCount <= 0
  {
    if Due(s, now) then
      if Expired(s, now) then
        s.(animation := None)
      else
        var since := now - s.ani.start;
        var a := s.ani.(updated := now,
                        cycleMillis := CMod(since, s.ani.cycleDuration),
                        cycleCount := CDiv(since, s.ani.cycleDuration));
        s.(ani := Fire(prog, s.animation.value, a), refresh := NeoStrip.TriggerRefresh(StripOf(s)).refresh)
    else
      s
  }

  /** `update(millis)`: advance the animation, then let the strip show its
      buffer if a refresh is pending. Returns the frame shown, if any. */
  function Update(s: Pixeleds, now: int, prog: Program): (out: (Pixeleds, Option<seq<PixCol>>))
    requires Valid(s)
    ensures Valid(out.0) && !out.0.refresh
    ensures out.1.Some? <==> s.refresh || (Due(s, now) && !Expired(s, now))
    ensures out.1.Some? ==> out.1.value == UpdateAnimation(s, now, prog).ani.pixels
    ensures out.0 == UpdateAnimation(s, now, prog).(refresh := false)
  {
    var s1 := UpdateAnimation(s, now, prog);
    var (st, shown) := NeoStrip.Update(StripOf(s1), false);
    (WithStrip(s1, st), shown)
  }

  /** `setPixel`: cancel the animation and write one pixel. */
  function SetPixel(s: Pixeleds, pixel: int, color: PixCol): (r: Pixeleds)
    requires pixel >= 0
    ensures Valid(r) && r.animation == None
    ensures |r.ani.pixels| == |s.ani.pixels|
    ensures pixel < |s.ani.pixels| ==> r.ani.pixels[pixel] == color && r.refresh
    ensures forall j :: 0 <= j < |s.ani.pixels| && j != pixel ==> r.ani.pixels[j] == s.ani.pixels[j]
    ensures pixel >= |s.ani.pixels| ==> r.refresh == s.refresh
    ensures r.ani == s.ani.(pixels := r.ani.pixels) && r.animationRefresh == s.animationRefresh
  {
    WithStrip(s.(animation := None), NeoStrip.SetPixelColor(StripOf(s), pixel, color))
  }

  /** The colours `setPixels(colors, count)` writes: the given colours for
      the first `count` pixels, black beyond. */
  function Padded(colors: seq<PixCol>, count: int, n: nat): (src: seq<PixCol>)
    requires count <= n ==> count <= |colors|
    requires count > n ==> n <= |colors|
    ensures |src| == n
    ensures forall j :: 0 <= j < n ==> src[j] == if j < count then colors[j] else Black
  {
    seq(n, j requires 0 <= j < n => if j < count then colors[j] else Black)
  }

  /** `setPixels(PixCol)`: cancel the animation and paint every pixel. */
  function SetPixels(s: Pixeleds, color: PixCol): (r: Pixeleds)
    ensures Valid(r) && r.animation == None
    ensures |r.ani.pixels| == |s.ani.pixels|
    ensures forall j :: 0 <= j < |r.ani.pixels| ==> r.ani.pixels[j] == color
    ensures r.refresh <==> s.refresh || |s.ani.pixels| > 0
    ensures r.ani == s.ani.(pixels := r.ani.pixels) && r.animationRefresh == s.animationRefresh
  {
    WithStrip(s.(animation := None), NeoStrip.WriteFrom(StripOf(s), 0, seq(|s.ani.pixels|, _ => color)))
  }

  /** `setPixels(PixCol*, int)`: cancel the animation, copy the first `count`
      colours and blacken the rest. */
  function SetPixelsFrom(s: Pixeleds, colors: seq<PixCol>, count: int): (r: Pixeleds)
    requires count <= |s.ani.pixels| ==> count <= |colors|
    requires count > |s.ani.pixels| ==> |s.ani.pixels| <= |colors|
    ensures Valid(r) && r.animation == None
    ensures |r.ani.pixels| == |s.ani.pixels|
    ensures forall j :: 0 <= j < |r.ani.pixels| && j < count ==> r.ani.pixels[j] == colors[j]
    ensures forall j :: 0 <= j < |r.ani.pixels| && j >= count ==> r.ani.pixels[j] == Black
    ensures r.refresh <==> s.refresh || |s.ani.pixels| > 0
    ensures r.ani == s.ani.(pixels := r.ani.pixels) && r.animationRefresh == s.animationRefresh
  {
    WithStrip(s.(animation := None), NeoStrip.WriteFrom(StripOf(s), 0, Padded(colors, count, |s.ani.pixels|)))
  }

  /** `updatePixel`: write one pixel and show the strip at once, leaving the
      animation running. */
  function UpdatePixel(s: Pixeleds, pixel: int, color: PixCol): (out: (Pixeleds, Option<seq<PixCol>>))
    requires pixel >= 0
    ensures Valid(s) ==> Valid(out.0)
    ensures out.0.animation == s.animation && !out.0.refresh
    ensures out.1 == Some(out.0.ani.pixels)
    ensures |out.0.ani.pixels| == |s.ani.pixels|
    ensures pixel < |s.ani.pixels| ==> out.0.ani.pixels[pixel] == color
    ensures forall j :: 0 <= j < |s.ani.pixels| && j != pixel ==> out.0.ani.pixels[j] == s.ani.pixels[j]
    ensures out.0.ani == s.ani.(pixels := out.0.ani.pixels) && out.0.animationRefresh == s.animationRefresh
  {
    var (st, shown) := NeoStrip.Update(NeoStrip.SetPixelColor(StripOf(s), pixel, color), true);
    (WithStrip(s, st), shown)
  }

  /** `updatePixels(PixCol)`: paint every pixel and show at once, leaving the
      animation running. */
  function UpdatePixels(s: Pixeleds, color: PixCol): (out: (Pixeleds, Option<seq<PixCol>>))
    ensures Valid(s) ==> Valid(out.0)
    ensures out.0.animation == s.animation && !out.0.refresh
    ensures out.1 == Some(out.0.ani.pixels)
    ensures |out.0.ani.pixels| == |s.ani.pixels|
    ensures forall j :: 0 <= j < |s.ani.pixels| ==> out.0.ani.pixels[j] == color
    ensures out.0.ani == s.ani.(pixels := out.0.ani.pixels) && out.0.animationRefresh == s.animationRefresh
  {
    var (st, shown) := NeoStrip.Update(NeoStrip.WriteFrom(StripOf(s), 0, seq(|s.ani.pixels|, _ => color)), true);
    (WithStrip(s, st), shown)
  }

  /** `updatePixels(PixCol*, int)`: copy colours as `setPixels` does and show
      at once, leaving the animation running. */
  function UpdatePixelsFrom(s: Pixeleds, colors: seq<PixCol>, count: int): (out: (Pixeleds, Option<seq<PixCol>>))
    requires count <= |s.ani.pixels| ==> count <= |colors|
    requires count > |s.ani.pixels| ==> |s.ani.pixels| <= |colors|
    ensures Valid(s) ==> Valid(out.0)
    ensures out.0.animation == s.animation && !out.0.refresh
    ensures out.1 == Some(out.0.ani.pixels)
    ensures |out.0.ani.pixels| == |s.ani.pixels|
    ensures forall j :: 0 <= j < |s.ani.pixels| && j < count ==> out.0.ani.pixels[j] == colors[j]
    ensures forall j :: 0 <= j < |s.ani.pixels| && j >= count ==> out.0.ani.pixels[j] == Black
    ensures out.0.ani == s.ani.(pixels := out.0.ani.pixels) && out.0.animationRefresh == s.animationRefresh
  {
    var (st, shown) := NeoStrip.Update(NeoStrip.WriteFrom(StripOf(s), 0, Padded(colors, count, |s.ani.pixels|)), true);
    (WithStrip(s, st), shown)
  }

  // ---------------------------------------------------------------------
  // Runs of updates
  // ---------------------------------------------------------------------

  /** `updateAnimation` called at each of the given times in turn. */
  function RunAnimation(s: Pixeleds, times: seq<int>, prog: Program): (r: Pixeleds)
    requires Valid(s)
    ensures Valid(r)
    decreases |times|
  {
    if |times| == 0 then s else RunAnimation(UpdateAnimation(s, times[0], prog), times[1..], prog)
  }

  /** With no animation function set, no sequence of updates changes
      anything. */
  lemma {:induction false} IdleStaysIdle(s: Pixeleds, times: seq<int>, prog: Program)
    requires Valid(s) && s.animation == None
    ensures RunAnimation(s, times, prog) == s
    decreases |times|
  {
    if |times| > 0 {
      IdleStaysIdle(UpdateAnimation(s, times[0], prog), times[1..], prog);
    }
  }

  /** A zero duration fires the function once, in `startAnimation`, and never
      again. */
  lemma ZeroDurationFiresOnce(s: Pixeleds, f: FnPtr, palette: Option<PixPal>, cycle: int, data: int,
                              now: int, prog: Program, times: seq<int>)
    ensures var r := StartAnimation(s, f, palette, cycle, 0, data, now, prog);
      RunAnimation(r, times, prog) == r
  {
    IdleStaysIdle(StartAnimation(s, f, palette, cycle, 0, data, now, prog), times, prog);
  }

  /** A negative duration puts `stop` before `start`, so the animation is
      never stopped by updates. */
  lemma {:induction false} NeverExpires(s: Pixeleds, f: FnPtr, times: seq<int>, prog: Program)
    requires Valid(s) && s.animation == Some(f) && s.ani.stop < s.ani.start
    ensures RunAnimation(s, times, prog).animation == Some(f)
    decreases |times|
  {
    if |times| > 0 {
      var s1 := UpdateAnimation(s, times[0], prog);
      assert s1.ani.stop == s.ani.stop && s1.ani.start == s.ani.start;
      NeverExpires(s1, f, times[1..], prog);
    }
  }

  lemma NegativeDurationRunsForever(s: Pixeleds, f: FnPtr, palette: Option<PixPal>, cycle: int, duration: int,
                                    data: int, now: int, prog: Program, times: seq<int>)
    requires duration < 0
    ensures RunAnimation(StartAnimation(s, f, palette, cycle, duration, data, now, prog), times, prog).animation == Some(f)
  {
    NeverExpires(StartAnimation(s, f, palette, cycle, duration, data, now, prog), f, times, prog);
  }

  /** After a direct write an animation stays off (`IdleStaysIdle` covers the
      auto-stopped case). */
  lemma DirectWriteCancels(s: Pixeleds, pixel: int, color: PixCol, times: seq<int>, prog: Program)
    requires pixel >= 0
    ensures RunAnimation(SetPixel(s, pixel, color), times, prog) == SetPixel(s, pixel, color)
    ensures RunAnimation(SetPixels(s, color), times, prog) == SetPixels(s, color)
  {
    IdleStaysIdle(SetPixel(s, pixel, color), times, prog);
    IdleStaysIdle(SetPixels(s, color), times, prog);
  }

  /** When `isAnimationActive` holds: after a start with a non-zero
      duration, and not after a direct write, a zero-duration start or an
      auto-stop. */
  lemma ActivityTransitions(s: Pixeleds, f: FnPtr, palette: Option<PixPal>, cycle: int, duration: int,
                            data: int, now: int, prog: Program, pixel: int, color: PixCol)
    requires Valid(s) && pixel >= 0
    ensures IsAnimationActive(StartAnimation(s, f, palette, cycle, duration, data, now, prog)) <==> duration != 0
    ensures !IsAnimationActive(SetPixel(s, pixel, color)) && !IsAnimationActive(SetPixels(s, color))
    ensures IsAnimationActive(UpdateAnimation(s, now, prog)) <==> IsAnimationActive(s) && !(Due(s, now) && Expired(s, now))
  {
  }

  /** The cycle arithmetic on a worked case: 2500 ms after a start at 0 with
      1000 ms cycles is 500 ms into cycle 2. */
  lemma CycleExample(s: Pixeleds, prog: Program)
    requires s.animation.Some? && s.ani.cycleDuration == 1000 && s.ani.start == 0 && s.ani.stop <= 0
    requires 2500 > s.ani.updated + s.animationRefresh
    ensures UpdateAnimation(s, 2500, prog).ani.cycleCount == 2
    ensures UpdateAnimation(s, 2500, prog).ani.cycleMillis == 500
  {
  }

  /** The context's clock is in order: the last update is not before the
      start, and the cycle position lies inside the cycle. */
  predicate InOrder(s: Pixeleds)
  {
    s.ani.updated >= s.ani.start && 0 <= s.ani.cycleMillis < s.ani.cycleDuration
  }

  lemma StartIsInOrder(s: Pixeleds, f: FnPtr, palette: Option<PixPal>, cycle: int, duration: int,
                       data: int, now: int, prog: Program)
    ensures InOrder(StartAnimation(s, f, palette, cycle, duration, data, now, prog))
  {
  }

  /** With a refresh interval that is not negative, updates keep the clock in
      order, so every tick sees a non-negative elapsed time. */
  lemma {:induction false} StaysInOrder(s: Pixeleds, times: seq<int>, prog: Program)
    requires Valid(s) && InOrder(s) && s.animationRefresh >= 0
    ensures InOrder(RunAnimation(s, times, prog))
    decreases |times|
  {
    if |times| > 0 {
      var s1 := UpdateAnimation(s, times[0], prog);
      StaysInOrder(s1, times[1..], prog);
    }
  }
}

=== FILE: neo_strip.dfy ===
/** The NeoPixel-backed `ParticlePixels` of the generic build: a pixel buffer
    plus the `refresh` flag that says the buffer differs from what the strip
    last showed. The NeoPixel calls become a returned frame. */
module NeoStrip {
  import opened Wrappers
  import opened Color

  datatype Strip = Strip(pixels: seq<PixCol>, refresh: bool)

  /** A freshly constructed strip: the flag starts set. */
  function New(pixels: seq<PixCol>): (s: Strip)
    ensures s.pixels == pixels && s.refresh
  {
    Strip(pixels, true)
  }

  /** `setPixelColor`: only an index below the pixel count is written, and
      only then is a refresh requested. The source has no lower-bound check. */
  function SetPixelColor(s: Strip, pixel: int, color: PixCol): (r: Strip)
    requires pixel >= 0
    ensures |r.pixels| == |s.pixels|
    ensures pixel < |s.pixels| ==> r.pixels[pixel] == color && r.refresh
    ensures forall j :: 0 <= j < |s.pixels| && j != pixel ==> r.pixels[j] == s.pixels[j]
    ensures pixel >= |s.pixels| ==> r == s
  {
    if pixel < |s.pixels| then Strip(s.pixels[pixel := color], true) else s
  }

  /** `triggerRefresh`. */
  function TriggerRefresh(s: Strip): (r: Strip)
    ensures r.pixels == s.pixels && r.refresh
  {
    s.(refresh := true)
  }

  /** `update(doRefresh)`: when neither the flag nor `doRefresh` is set
      nothing is sent; otherwise the whole buffer is shown (the returned
      frame) and the flag is cleared. */
  function Update(s: Strip, doRefresh: bool): (out: (Strip, Option<seq<PixCol>>))
    ensures !s.refresh && !doRefresh ==> out == (s, None)
    ensures s.refresh || doRefresh ==> out.1 == Some(s.pixels) && !out.0.refresh
    ensures out.0.pixels == s.pixels
  {
    if !s.refresh && !doRefresh then (s, None) else (Strip(s.pixels, false), Some(s.pixels))
  }

  /** The loop `for idx in [from, pixelCount): setPixelColor(idx, src[idx])`
      used by the controller's bulk writes. */
  function WriteFrom(s: Strip, from: nat, src: seq<PixCol>): (r: Strip)
    requires |src| == |s.pixels|
    ensures |r.pixels| == |s.pixels|
    ensures forall j :: 0 <= j < |s.pixels| ==> r.pixels[j] == if j < from then s.pixels[j] else src[j]
    ensures r.refresh <==> s.refresh || from < |s.pixels|
    decreases |s.pixels| - from
  {
    if from >= |s.pixels| then s else WriteFrom(SetPixelColor(s, from, src[from]), from + 1, src)
  }

  /** A second update with nothing new to show sends nothing. */
  lemma UpdateSettles(s: Strip)
    ensures Update(Update(s, false).0, false).1 == None
  {
  }

  /** Writing a pixel that is already that colour still requests a refresh;
      writing past the end requests nothing. */
  lemma SetPixelColorFlag(s: Strip, pixel: int, color: PixCol)
    requires pixel >= 0
    ensures SetPixelColor(s, pixel, color).refresh <==> s.refresh || pixel < |s.pixels|
  {
  }
}

=== FILE: palette.dfy ===
/** `PixPal`: a counted list of colours. */
module Palette {
  import opened Bits
  import opened Color

  /** The first `count` entries of `colors` are the palette; the backing
      array may be longer. The count is a byte, so a palette has at most
      255 colours. */
  datatype PixPal = PixPal(count: byte, colors: seq<PixCol>)

  /** The backing array holds at least `count` colours. */
  predicate WellFormed(p: PixPal)
  {
    p.count <= |p.colors|
  }

  /** Reference meaning of palette equality: same count, and the same colour
      at every index below it. */
  predicate SamePalette(a: PixPal, b: PixPal)
    requires WellFormed(a) && WellFormed(b)
  {
    a.count == b.count && forall i :: 0 <= i < a.count ==> a.colors[i] == b.colors[i]
  }

  /** `PixPal::operator==`: compare the counts, then scan the colours with
      `!=` and stop at the first difference. */
  method Equals(a: PixPal, b: PixPal) returns (eq: bool)
    requires WellFormed(a) && WellFormed(b)
    ensures eq <==> SamePalette(a, b)
  {
    if a.count != b.count {
      return false;
    }
    var i := 0;
    while i < a.count
      invariant 0 <= i <= a.count
      invariant forall j :: 0 <= j < i ==> a.colors[j] == b.colors[j]
      decreases a.count - i
    {
      if NotEqual(a.colors[i], b.colors[i]) {
        return false;
      }
      i := i + 1;
    }
    return true;
  }

  /** Palette equality is an equivalence on well-formed palettes and ignores
      whatever the backing arrays hold past `count`. */
  lemma SamePaletteEquivalence(a: PixPal, b: PixPal, c: PixPal)
    requires WellFormed(a) && WellFormed(b) && WellFormed(c)
    ensures SamePalette(a, a)
    ensures SamePalette(a, b) ==> SamePalette(b, a)
    ensures SamePalette(a, b) && SamePalette(b, c) ==> SamePalette(a, c)
    ensures SamePalette(a, PixPal(a.count, a.colors[..a.count]))
  {
  }
}

=== FILE: spi_encoder.dfy ===
/** The SPI bit expansion of the Photon 2 driver: every data bit becomes three
    SPI bits, `110` for a one and `100` for a zero, so that an SPI clock three
    times the LED bit rate reproduces the LED's pulse widths. */
module SpiEncoder {
  import opened Bits

  /** Three consecutive output bytes, in transmission order. */
  datatype Triple = Triple(first: byte, second: byte, third: byte)

  /** The 24 SPI bits of a triple, most significant bit of `first` first. */
  function TripleBits(t: Triple): (bits: seq<bool>)
    ensures |bits| == 24
  {
    ByteBits(t.first) + ByteBits(t.second) + ByteBits(t.third)
  }

  /** The reference expansion: bit i of the input becomes the group
      `1, bit, 0` at positions 3i, 3i+1, 3i+2 of the output. */
  function Expand(bits: seq<bool>): (out: seq<bool>)
    ensures |out| == 3 * |bits|
  {
    seq(3 * |bits|, j requires 0 <= j < 3 * |bits| => j % 3 == 0 || (j % 3 == 1 && bits[j / 3]))
  }

  /** Reads the middle bit of every three-bit group. */
  function Middle(bits: seq<bool>): (data: seq<bool>)
    ensures |data| == |bits| / 3
  {
    seq(|bits| / 3, i requires 0 <= i < |bits| / 3 => bits[3 * i + 1])
  }

  /** `encodeByteTo3xBits`. Each output byte ORs three constants chosen by
      single-bit tests of the input; the constants of one byte occupy disjoint
      bit positions, so their OR is their sum. The result is the all-zero
      encoding `92 49 24` with, for each set data bit, the one bit of its
      group's middle position added. */
  function Encode(x: byte): (e: Triple)
    ensures var b := ByteBits(x);
      && e.first == 0x92 + (if b[0] then 0x40 else 0) + (if b[1] then 0x08 else 0) + (if b[2] then 0x01 else 0)
      && e.second == 0x49 + (if b[3] then 0x20 else 0) + (if b[4] then 0x04 else 0)
      && e.third == 0x24 + (if b[5] then 0x80 else 0) + (if b[6] then 0x10 else 0) + (if b[7] then 0x02 else 0)
  {
    var b := ByteBits(x);
    Triple(
      (if b[0] then 0xC0 else 0x80) + (if b[1] then 0x18 else 0x10) + (if b[2] then 0x03 else 0x02),
      (if b[3] then 0x60 else 0x40) + (if b[4] then 0x0C else 0x08) + (if b[5] then 0x01 else 0x01),
      (if b[5] then 0x80 else 0x00) + (if b[6] then 0x30 else 0x20) + (if b[7] then 0x06 else 0x04))
  }

  /** Recovers a data byte from its three SPI bytes by reading the middle bit
      of each group. */
  function Decode(t: Triple): byte
  {
    FromBits(Middle(TripleBits(t)))
  }

  lemma Expand8(bs: seq<bool>)
    requires |bs| == 8
    ensures Expand(bs) ==
      [true, bs[0], false, true, bs[1], false, true, bs[2]]
      + [false, true, bs[3], false, true, bs[4], false, true]
      + [bs[5], false, true, bs[6], false, true, bs[7], false]
  {
  }

  lemma FirstByte(x: byte)
    ensures ByteBits(Encode(x).first) == [true, ByteBits(x)[0], false, true, ByteBits(x)[1], false, true, ByteBits(x)[2]]
  {
  }

  lemma SecondByte(x: byte)
    ensures ByteBits(Encode(x).second) == [false, true, ByteBits(x)[3], false, true, ByteBits(x)[4], false, true]
  {
  }

  lemma ThirdByte(x: byte)
    ensures ByteBits(Encode(x).third) == [ByteBits(x)[5], false, true, ByteBits(x)[6], false, true, ByteBits(x)[7], false]
  {
  }

  /** The three output bytes, read most significant bit first, are the
      input's bits from 7 down to 0 with each one written as `110` or `100`. */
  lemma EncodeIsExpansion(x: byte)
    ensures TripleBits(Encode(x)) == Expand(ByteBits(x))
  {
    FirstByte(x);
    SecondByte(x);
    ThirdByte(x);
    Expand8(ByteBits(x));
  }

  /** Every group the encoder produces starts with 1 and ends with 0: the
      only data-dependent SPI bit is the middle one. */
  lemma GroupShape(x: byte, i: nat)
    requires i < 8
    ensures TripleBits(Encode(x))[3 * i]
    ensures !TripleBits(Encode(x))[3 * i + 2]
    ensures TripleBits(Encode(x))[3 * i + 1] == ByteBits(x)[i]
  {
    EncodeIsExpansion(x);
    ExpandGroup(ByteBits(x), i);
  }

  /** Group `i` of the reference expansion is `1, bits[i], 0`. */
  lemma ExpandGroup(bits: seq<bool>, i: nat)
    requires i < |bits|
    ensures Expand(bits)[3 * i] && !Expand(bits)[3 * i + 2] && Expand(bits)[3 * i + 1] == bits[i]
  {
    assert (3 * i) % 3 == 0 && (3 * i + 1) % 3 == 1 && (3 * i + 2) % 3 == 2;
    assert (3 * i + 1) / 3 == i;
  }

  /** Reading the middle bits undoes the expansion. */
  lemma MiddleOfExpand(bs: seq<bool>)
    ensures Middle(Expand(bs)) == bs
  {
  }

  /** Round trip: decoding an encoded byte gives the byte back. */
  lemma DecodeEncode(x: byte)
    ensures Decode(Encode(x)) == x
  {
    EncodeIsExpansion(x);
    MiddleOfExpand(ByteBits(x));
    FromByteBits(x);
  }

  /** Hence distinct bytes have distinct encodings. */
  lemma EncodeInjective(x: byte, y: byte)
    ensures Encode(x) == Encode(y) <==> x == y
  {
    if Encode(x) == Encode(y) {
      DecodeEncode(x);
      DecodeEncode(y);
    }
  }

  /** Test vectors: all zeros give `100` groups, all ones `110` groups.
      For 0b10110100 the third and second bytes differ from the worked example
      in the function's doc comment, which is wrong about them. */
  lemma Vectors()
    ensures Encode(0x00) == Triple(0x92, 0x49, 0x24)
    ensures Encode(0xFF) == Triple(0xDB, 0x6D, 0xB6)
    ensures Encode(0xB4) == Triple(0xD3, 0x69, 0xA4)
    ensures Encode(0xB4) != Triple(0xD3, 0x4D, 0x26)
  {
  }
}

=== FILE: spi_strip.dfy ===
/** The Photon 2 driver: pixels are expanded three-fold into an SPI buffer
    framed by zero reset padding, and the whole buffer is transferred. */
module SpiStrip {
  import opened Wrappers
  import opened Bits
  import opened Color
  import opened ChannelOrder
  import opened SpiEncoder

  /** SPI bits per data bit. */
  const SPI_BITS_FACTOR: int := 3
  /** Bytes of zero padding before and after the data: 300 µs at roughly
      0.4 bytes per microsecond. */
  const RESET_OFFSET: int := 300 * 4 / 10

  /** Why the constructor returned early. */
  datatype CtorError = UnsupportedType | NoSpiInterface | OutOfMemory

  /** The geometry the constructor computes. Offsets are byte positions of
      each channel's three encoded bytes inside one pixel's block. */
  datatype Layout = Layout(
    bytesPerLED: int,
    rOffset: int, gOffset: int, bOffset: int, wOffset: int,
    resetOffset: int,
    arraySize: int)

  datatype SpiStrip = SpiStrip(
    pixels: Option<seq<PixCol>>,
    pixelCount: nat,
    refresh: bool,
    layout: Layout,
    buffer: seq<byte>)

  /** The constructor's arithmetic for `order` and `pixelCount`. */
  function LayoutOf(order: byte, pixelCount: nat): (l: Layout)
    ensures l.bytesPerLED == (if WField(order) != 0 then 4 else 3)
    ensures l.rOffset == 3 * RField(order) && l.gOffset == 3 * GField(order)
    ensures l.bOffset == 3 * BField(order) && l.wOffset == 3 * WField(order)
    ensures l.resetOffset == 120
    ensures l.arraySize == pixelCount * l.bytesPerLED * SPI_BITS_FACTOR + 2 * l.resetOffset
  {
    var bpl := if (order / 64) % 4 != 0 then 4 else 3;
    Layout(bpl,
           SPI_BITS_FACTOR * (order % 4), SPI_BITS_FACTOR * ((order / 4) % 4),
           SPI_BITS_FACTOR * ((order / 16) % 4), SPI_BITS_FACTOR * ((order / 64) % 4),
           RESET_OFFSET,
           pixelCount * bpl * SPI_BITS_FACTOR + RESET_OFFSET + RESET_OFFSET)
  }

  /** Bytes the fill loop advances per pixel. */
  function Stride(l: Layout): int
  {
    if l.wOffset != 0 then 12 else 9
  }

  /** What every constructed layout satisfies. */
  predicate Shaped(l: Layout, pixelCount: nat)
  {
    && l.resetOffset == 120
    && (l.bytesPerLED == 4 <==> l.wOffset != 0)
    && (l.bytesPerLED == 3 || l.bytesPerLED == 4)
    && SlotOffsets(l)
    && l.arraySize == pixelCount * Stride(l) + 2 * l.resetOffset
  }

  /** Four bytes per LED exactly when the white field is non-zero, and the
      fill loop's stride is three bytes per LED byte. */
  lemma LayoutIsShaped(order: byte, pixelCount: nat)
    ensures Shaped(LayoutOf(order, pixelCount), pixelCount)
    ensures LayoutOf(order, pixelCount).bytesPerLED == 4 <==> LayoutOf(order, pixelCount).wOffset != 0
    ensures Stride(LayoutOf(order, pixelCount)) == 3 * LayoutOf(order, pixelCount).bytesPerLED
  {
    var l := LayoutOf(order, pixelCount);
    assert pixelCount * l.bytesPerLED * 3 == pixelCount * Stride(l);
  }

  /** The comment's worked size is wrong: ten RGB pixels need 330 bytes, not
      540. */
  lemma TenPixelArraySize()
    ensures LayoutOf(ORDER_RGB, 10).arraySize == 330
    ensures LayoutOf(ORDER_RGB, 10).arraySize != 540
  {
  }

  /** Every channel slot starts at one of the four slot positions of a
      block: byte 0, 3, 6 or 9. */
  predicate SlotOffsets(l: Layout)
  {
    && (l.rOffset == 0 || l.rOffset == 3 || l.rOffset == 6 || l.rOffset == 9)
    && (l.gOffset == 0 || l.gOffset == 3 || l.gOffset == 6 || l.gOffset == 9)
    && (l.bOffset == 0 || l.bOffset == 3 || l.bOffset == 6 || l.bOffset == 9)
    && (l.wOffset == 0 || l.wOffset == 3 || l.wOffset == 6 || l.wOffset == 9)
  }

  /** The three-byte slot at `ofs` contains `p`. */
  predicate InSlot(p: int, ofs: int)
  {
    ofs <= p < ofs + 3
  }

  /** The channel slots of a pixel block are pairwise disjoint and lie inside
      the block; for three-byte LEDs the white slot is unused. */
  predicate Tiles(l: Layout)
  {
    var s := Stride(l);
    && l.rOffset + 3 <= s && l.gOffset + 3 <= s && l.bOffset + 3 <= s
    && l.rOffset != l.gOffset && l.gOffset != l.bOffset && l.rOffset != l.bOffset
    && (l.wOffset != 0 ==> l.wOffset + 3 <= s && l.wOffset != l.rOffset && l.wOffset != l.gOffset && l.wOffset != l.bOffset)
  }

  /** A permutation order tiles the block: every byte of a block belongs to
      exactly one channel slot. */
  lemma PermutationsTile(order: byte, n: nat, p: int)
    requires (IsRgbPermutation(order) && WField(order) == 0) || IsRgbwPermutation(order)
    requires 0 <= p < Stride(LayoutOf(order, n))
    ensures Tiles(LayoutOf(order, n))
    ensures var l := LayoutOf(order, n);
      InSlot(p, l.rOffset) || InSlot(p, l.gOffset) || InSlot(p, l.bOffset) || (l.wOffset != 0 && InSlot(p, l.wOffset))
    ensures var l := LayoutOf(order, n);
      !(InSlot(p, l.rOffset) && InSlot(p, l.gOffset)) && !(InSlot(p, l.gOffset) && InSlot(p, l.bOffset))
      && !(InSlot(p, l.rOffset) && InSlot(p, l.bOffset))
      && (l.wOffset != 0 ==> !InSlot(p, l.wOffset) || !(InSlot(p, l.rOffset) || InSlot(p, l.gOffset) || InSlot(p, l.bOffset)))
  {
  }

  /** `ParticlePixels(pixels, pixelCount, pin, type, order)`. An unsupported
      type, a missing SPI interface or a failed allocation returns early;
      `spiAvailable` and `allocOk` stand for the two hardware answers. */
  function New(pixels: Option<seq<PixCol>>, pixelCount: nat, ledType: byte, order: byte,
               spiAvailable: bool, allocOk: bool): (r: Result<SpiStrip, CtorError>)
    requires pixels.Some? ==> |pixels.value| == pixelCount
    ensures r == Failure(UnsupportedType) <==> ledType != WS2812B && ledType != SK6812W
    ensures r == Failure(NoSpiInterface) <==> (ledType == WS2812B || ledType == SK6812W) && !spiAvailable
    ensures r.Success? <==> (ledType == WS2812B || ledType == SK6812W) && spiAvailable && allocOk
    ensures r.Success? ==>
      && r.value.refresh && r.value.pixels == pixels && r.value.pixelCount == pixelCount
      && r.value.layout == LayoutOf(order, pixelCount)
      && |r.value.buffer| == r.value.layout.arraySize
      && forall k :: 0 <= k < |r.value.buffer| ==> r.value.buffer[k] == 0
  {
    if ledType != WS2812B && ledType != SK6812W then Failure(UnsupportedType)
    else if !spiAvailable then Failure(NoSpiInterface)
    else
      var l := LayoutOf(order, pixelCount);
      if !allocOk then Failure(OutOfMemory)
      else Success(SpiStrip(pixels, pixelCount, true, l, seq(l.arraySize, _ => 0)))
  }

  /** `encodeByteTo3xBits(b, buf + at)`: writes exactly the three bytes at
      `at`. */
  function Put(buf: seq<byte>, at: int, t: Triple): (r: seq<byte>)
    requires 0 <= at && at + 3 <= |buf|
    ensures |r| == |buf|
    ensures r[at] == t.first && r[at + 1] == t.second && r[at + 2] == t.third
    ensures forall k :: 0 <= k < |buf| && !InSlot(k, at) ==> r[k] == buf[k]
  {
    buf[at := t.first][at + 1 := t.second][at + 2 := t.third]
  }

  /** The three bytes at `at` hold `t`. */
  predicate Holds(buf: seq<byte>, at: int, t: Triple)
  {
    0 <= at && at + 3 <= |buf| && buf[at] == t.first && buf[at + 1] == t.second && buf[at + 2] == t.third
  }

  /** Where pixel `i`'s block starts. */
  function Base(l: Layout, i: int): int
  {
    l.resetOffset + i * Stride(l)
  }

  /** Pixel `px`'s encoded channels sit in block `i`: red, green, blue at
      their offsets and, for four-byte LEDs, an encoded zero white. */
  predicate Placed(buf: seq<byte>, l: Layout, i: int, px: PixCol)
  {
    && Holds(buf, Base(l, i) + l.rOffset, Encode(px.r))
    && Holds(buf, Base(l, i) + l.gOffset, Encode(px.g))
    && Holds(buf, Base(l, i) + l.bOffset, Encode(px.b))
    && (l.wOffset != 0 ==> Holds(buf, Base(l, i) + l.wOffset, Encode(0)))
  }

  lemma BaseStep(l: Layout, i: int)
    ensures Base(l, i + 1) == Base(l, i) + Stride(l)
  {
  }

  lemma BaseMono(l: Layout, j: nat, i: nat)
    requires j < i
    ensures Base(l, j) + Stride(l) <= Base(l, i)
  {
    var d := i - j - 1;
    assert i * Stride(l) == j * Stride(l) + Stride(l) + d * Stride(l) by {
      assert i == j + 1 + d;
    }
    assert d * Stride(l) >= 0;
  }

  /** Writes outside a block leave a placed pixel in that block placed. */
  lemma PlacedFrame(buf: seq<byte>, buf': seq<byte>, l: Layout, j: int, px: PixCol, from: int)
    requires Tiles(l) && Placed(buf, l, j, px) && |buf'| == |buf|
    requires Base(l, j) + Stride(l) <= from
    requires forall k :: 0 <= k < from && k < |buf| ==> buf'[k] == buf[k]
    ensures Placed(buf', l, j, px)
  {
  }

  /** One pixel's writes: red, green, blue and, when the layout has a white
      slot, an encoded zero; they stay inside the block at `pos`. */
  method PutPixel(buf: seq<byte>, l: Layout, pos: int, px: PixCol) returns (r: seq<byte>)
    requires SlotOffsets(l)
    requires 0 <= pos && pos + 12 <= |buf|
    ensures |r| == |buf|
    ensures forall k :: 0 <= k < |buf| && (k < pos || k >= pos + 12) ==> r[k] == buf[k]
    ensures Tiles(l) ==> forall k :: 0 <= k < |buf| && (k < pos || k >= pos + Stride(l)) ==> r[k] == buf[k]
    ensures Tiles(l) ==>
      && Holds(r, pos + l.rOffset, Encode(px.r)) && Holds(r, pos + l.gOffset, Encode(px.g))
      && Holds(r, pos + l.bOffset, Encode(px.b))
      && (l.wOffset != 0 ==> Holds(r, pos + l.wOffset, Encode(0)))
  {
    r := PutSlots(buf, l, pos, Encode(px.r), Encode(px.g), Encode(px.b), Encode(0));
  }

  /** The writes of one pixel for any four triples: the colour slots, then
      the white slot when the layout has one. */
  method PutSlots(buf: seq<byte>, l: Layout, pos: int, tr: Triple, tg: Triple, tb: Triple, tw: Triple)
    returns (r: seq<byte>)
    requires SlotOffsets(l)
    requires 0 <= pos && pos + 12 <= |buf|
    ensures |r| == |buf|
    ensures forall k :: 0 <= k < |buf| && (k < pos || k >= pos + 12) ==> r[k] == buf[k]
    ensures Tiles(l) ==> forall k :: 0 <= k < |buf| && (k < pos || k >= pos + Stride(l)) ==> r[k] == buf[k]
    ensures Tiles(l) ==>
      && Holds(r, pos + l.rOffset, tr) && Holds(r, pos + l.gOffset, tg) && Holds(r, pos + l.bOffset, tb)
      && (l.wOffset != 0 ==> Holds(r, pos + l.wOffset, tw))
  {
    r := PutColours(buf, l, pos, tr, tg, tb);
    if l.wOffset != 0 {
      r := Put(r, pos + l.wOffset, tw);
    }
  }

  /** The red, green and blue writes of one pixel. */
  method PutColours(buf: seq<byte>, l: Layout, pos: int, tr: Triple, tg: Triple, tb: Triple)
    returns (r: seq<byte>)
    requires SlotOffsets(l)
    requires 0 <= pos && pos + 12 <= |buf|
    ensures |r| == |buf|
    ensures forall k :: 0 <= k < |buf| && (k < pos || k >= pos + 12) ==> r[k] == buf[k]
    ensures Tiles(l) ==> forall k :: 0 <= k < |buf| && (k < pos || k >= pos + Stride(l)) ==> r[k] == buf[k]
    ensures Tiles(l) ==> Holds(r, pos + l.rOffset, tr) && Holds(r, pos + l.gOffset, tg) && Holds(r, pos + l.bOffset, tb)
  {
    r := Put(buf, pos + l.rOffset, tr);
    r := Put(r, pos + l.gOffset, tg);
    r := Put(r, pos + l.bOffset, tb);
  }

  /** The state the pixel loop keeps after `i` pixels. */
  predicate Filled(out: seq<byte>, buf: seq<byte>, pixels: seq<PixCol>, l: Layout, i: int)
    requires 0 <= i <= |pixels|
  {
    && |out| == |buf|
    && (forall k :: 0 <= k < l.resetOffset && k < |buf| ==> out[k] == buf[k])
    && (Tiles(l) ==> forall k :: Base(l, i) <= k < |buf| && 0 <= k ==> out[k] == buf[k])
    && (Tiles(l) ==> forall j :: 0 <= j < i ==> Placed(out, l, j, pixels[j]))
  }

  /** Pixels already placed stay placed when only bytes from `from` on
      change. */
  lemma KeepPlaced(out: seq<byte>, out': seq<byte>, pixels: seq<PixCol>, l: Layout, i: nat, from: int)
    requires Tiles(l) && i <= |pixels| && |out'| == |out| && Base(l, i) <= from
    requires forall k :: 0 <= k < from && k < |out| ==> out'[k] == out[k]
    requires forall j :: 0 <= j < i ==> Placed(out, l, j, pixels[j])
    ensures forall j :: 0 <= j < i ==> Placed(out', l, j, pixels[j])
  {
    forall j | 0 <= j < i
      ensures Placed(out', l, j, pixels[j])
    {
      BaseMono(l, j, i);
      PlacedFrame(out, out', l, j, pixels[j], from);
    }
  }

  /** One turn of the pixel loop keeps `Filled`. */
  method FillPixel(out: seq<byte>, buf: seq<byte>, pixels: seq<PixCol>, l: Layout, i: int) returns (out': seq<byte>)
    requires Shaped(l, |pixels|) && |buf| == l.arraySize
    requires 0 <= i < |pixels| && Filled(out, buf, pixels, l, i)
    ensures Filled(out', buf, pixels, l, i + 1)
  {
    BaseMono(l, i, |pixels|);
    var pos := Base(l, i);
    assert pos + 12 <= |buf|;
    out' := PutPixel(out, l, pos, pixels[i]);
    FillStep(out, out', buf, pixels, l, i, pos);
  }

  /** The frame and placement facts of one pixel's writes re-establish
      `Filled` one pixel further on. */
  lemma FillStep(out: seq<byte>, out': seq<byte>, buf: seq<byte>, pixels: seq<PixCol>, l: Layout, i: int, pos: int)
    requires Shaped(l, |pixels|) && 0 <= i < |pixels| && Filled(out, buf, pixels, l, i)
    requires pos == Base(l, i) && |out'| == |out|
    requires forall k :: 0 <= k < |out| && (k < pos || k >= pos + 12) ==> out'[k] == out[k]
    requires Tiles(l) ==> forall k :: 0 <= k < |out| && (k < pos || k >= pos + Stride(l)) ==> out'[k] == out[k]
    requires Tiles(l) ==>
      && Holds(out', pos + l.rOffset, Encode(pixels[i].r)) && Holds(out', pos + l.gOffset, Encode(pixels[i].g))
      && Holds(out', pos + l.bOffset, Encode(pixels[i].b))
      && (l.wOffset != 0 ==> Holds(out', pos + l.wOffset, Encode(0)))
    ensures Filled(out', buf, pixels, l, i + 1)
  {
    BaseStep(l, i);
    assert l.resetOffset <= pos by {
      assert i * Stride(l) >= 0;
    }
    if Tiles(l) {
      KeepPlaced(out, out', pixels, l, i, pos);
      assert Placed(out', l, i, pixels[i]);
    }
  }

  /** The pixel loop of `update`. The leading padding is never written,
      whatever the order; for a layout whose slots tile the block, the
      trailing padding is not written either and every pixel's channels end
      up encoded in its block. */
  method Fill(buf: seq<byte>, pixels: seq<PixCol>, l: Layout) returns (out: seq<byte>)
    requires Shaped(l, |pixels|) && |buf| == l.arraySize
    ensures |out| == |buf|
    ensures forall k :: 0 <= k < l.resetOffset ==> out[k] == buf[k]
    ensures Tiles(l) ==> forall k :: |buf| - l.resetOffset <= k < |buf| ==> out[k] == buf[k]
    ensures Tiles(l) ==> forall i :: 0 <= i < |pixels| ==> Placed(out, l, i, pixels[i])
  {
    out := buf;
    var pos := l.resetOffset;
    var i := 0;
    while i < |pixels|
      invariant 0 <= i <= |pixels|
      invariant pos == Base(l, i)
      invariant Filled(out, buf, pixels, l, i)
    {
      out := FillPixel(out, buf, pixels, l, i);
      BaseStep(l, i);
      pos := pos + (if l.wOffset != 0 then 12 else 9);
      i := i + 1;
    }
    assert Base(l, |pixels|) == |buf| - l.resetOffset;
  }

  /** The strip's fields are as the constructor left them. */
  predicate Consistent(s: SpiStrip)
  {
    && (s.pixels.Some? ==> |s.pixels.value| == s.pixelCount)
    && Shaped(s.layout, s.pixelCount)
    && |s.buffer| == s.layout.arraySize
  }

  /** Both reset paddings hold zeros. */
  predicate PaddingZero(s: SpiStrip)
    requires Consistent(s)
  {
    forall k :: 0 <= k < |s.buffer| && (k < s.layout.resetOffset || k >= |s.buffer| - s.layout.resetOffset) ==> s.buffer[k] == 0
  }

  /** `update(forceRefresh)`: nothing happens without pixels or without a
      pending or forced refresh; otherwise the buffer is refilled, sent whole
      (the returned bytes) and the flag cleared. */
  method Update(s: SpiStrip, forceRefresh: bool) returns (r: SpiStrip, sent: Option<seq<byte>>)
    requires Consistent(s)
    ensures Consistent(r)
    ensures s.pixels.None? || (!s.refresh && !forceRefresh) ==> r == s && sent == None
    ensures s.pixels.Some? && (s.refresh || forceRefresh) ==>
      && sent == Some(r.buffer) && !r.refresh
      && r == s.(buffer := r.buffer, refresh := false)
    ensures Tiles(s.layout) && PaddingZero(s) ==> PaddingZero(r)
    ensures Tiles(s.layout) && s.pixels.Some? && (s.refresh || forceRefresh) ==>
      forall i :: 0 <= i < s.pixelCount ==> Placed(r.buffer, s.layout, i, s.pixels.value[i])
  {
    if s.pixels.None? || (!s.refresh && !forceRefresh) {
      return s, None;
    }
    var out := Fill(s.buffer, s.pixels.value, s.layout);
    r := s.(buffer := out, refresh := false);
    sent := Some(out);
  }

  /** A freshly constructed strip is consistent and its padding is zero. */
  lemma NewIsConsistent(pixels: Option<seq<PixCol>>, pixelCount: nat, ledType: byte, order: byte,
                        spiAvailable: bool, allocOk: bool)
    requires pixels.Some? ==> |pixels.value| == pixelCount
    ensures var r := New(pixels, pixelCount, ledType, order, spiAvailable, allocOk);
      r.Success? ==> Consistent(r.value) && PaddingZero(r.value)
  {
    LayoutIsShaped(order, pixelCount);
  }
}

=== FILE: wrappers.dfy ===
/** Failure-carrying results used where the library returns early or leaves a
    pointer null. */
module Wrappers {

  /** A value that may be absent; stands for a possibly-null pointer. */
  datatype Option<+T> = None | Some(value: T)

  /** The outcome of an operation that can fail with an error `E`. */
  datatype Result<+T, +E> = Success(value: T) | Failure(error: E)
}
